=== FILE: README.md ===
# VIntervu interview core in Dafny

VIntervu is a mock-interview server. A candidate uploads a resume. The
server extracts the skills, infers an engineering branch and compares the
skills with a chosen job role. It then runs an interview: it asks generated
questions, transcribes and scores the spoken answers, and ends with
feedback and a total score.

This project models the deterministic logic of that server as pure Dafny
functions over immutable data, and proves what that logic promises. Every
call to the text-generation model, the speech services, the file system or
the PDF parser is a parameter: the reply it would give.

- `QuestionGenerator` (`question_generator.dfy`) covers questions:
  - the word-overlap `similarity` and its 0.7 near-duplicate threshold;
  - `filterQuestions`;
  - the five-question batches;
  - the follow-up loop of at most five attempts;
  - the `getCoreTopics` table.
- `InterviewService` (`interview_service.dfy`) covers the one
  `sessionState` record and the calls on it: `startInterview`,
  `getNextQuestion`, `recordResponse` with its score parsing, `endInterview`
  and `getResults`. It also proves the invariant the calls keep.
- `ResumeProcessor` (`resume_processor.dfy`) covers `inferBranch`, the
  `.pdf` extension gate and the array fallbacks of skill extraction.
- `InterviewTables` (`interview_tables.dfy`) holds the `roleSkills` and
  `skillSuggestions` tables.
- `InterviewRoutes` (`interview_routes.dfy`) covers the request logic of
  two routes:
  - analyze-resume: role check, found and missing skills, score and
    suggestions;
  - record-response: the audio check.
- `JsText` and `JsNumber` (`js_text.dfy`, `js_number.dfy`) give the
  JavaScript built-ins the core relies on: `toLowerCase`, `trim`,
  `split('\n')`, `split(/\s+/)` and `parseInt(text, 10)`.
- `Seqs` and `Wrappers` (`seqs.dfy`, `wrappers.dfy`) hold the generic
  sequence functions and `Option`/`Result`.

Conventions used throughout:
- A generation reply is `Generated(text)` or `GenerationError`. A loop that
  calls the model several times gets a function from the call number to the
  reply.
- An operation on the session returns the new session and either its
  output or the error it throws.
- The near-duplicate test `similarity(aq, q) > 0.7` is decided in integers
  as `10 * common > 7 * max(words, 1)`. `QuestionGenerator.NearDuplicateIsAboveThreshold`
  proves this equals the exact real ratio test.
- The analyze-resume score `Math.round(found / required * 100 * 100) / 100`
  is kept as integer hundredths of a percent, rounded half up.

## Model

| member | source | states |
|---|---|---|
| JsText.Lower | server/services/questionGenerator.js:81-82 | lower-casing keeps the length and maps every character through the ASCII case map |
| JsText.LowerIdempotent | server/services/resumeProcessor.js:86 | lower-casing twice is lower-casing once |
| JsText.TrimSpec | server/services/questionGenerator.js:91 | a trimmed line has no white space at either end, and it is empty exactly when the line is all white space |
| JsText.TrimIdempotent | server/services/questionGenerator.js:166 | trimming a trimmed string changes nothing |
| JsText.JoinSplit | server/services/questionGenerator.js:90 | splitting at newlines loses nothing: joining the pieces with newlines gives back the text |
| JsText.SplitWords | server/services/questionGenerator.js:81 | splitting at white space yields at least one token, and no token holds white space |
| JsText.SplitWordsRun | server/services/questionGenerator.js:81 | a whole run of white space (spaces, tabs, newlines, any length) is one separator: a word, a run and text not starting with white space split into that word and the pieces of the text; leading white space gives one empty first piece and trailing white space one empty last piece |
| JsText.SplitWordsSingle | server/services/questionGenerator.js:81 | a string without white space is a single piece |
| JsNumber.ParseIntDecimal | server/services/interviewService.js:89 | `parseInt` of a decimal numeral, optionally signed and followed by a non-digit, is that number |
| JsNumber.ParseIntSkipsPad | server/services/interviewService.js:89 | `parseInt` ignores leading white space |
| JsNumber.NoDigitsIsNaN | server/services/interviewService.js:89-90 | text that starts with neither white space, a digit nor a sign parses to NaN |
| JsNumber.DecimalValue | server/services/interviewService.js:89 | the decimal numeral of a number reads back as that number |
| JsNumber.ParseIntOfNumeral | server/services/interviewService.js:88-89 | `parseInt` of the trimmed text of a numeral (white space, an optional sign, digits with leading zeros allowed, then anything not starting with a digit) is the digits' value, negated after `-` |
| Seqs.Filter | server/services/questionGenerator.js:83 | `filter` keeps exactly the elements that pass, in order, and keeps everything when everything passes |
| Seqs.FilterKeepsOrder | server/routes/interview.js:128-130 | two kept elements stand in the same order as in the input |
| Seqs.FilterComplementCount | server/routes/interview.js:133 | a filter and its complement together keep as many elements as the input has |
| Seqs.Dedup | server/routes/interview.js:128-130 | `[...new Set(xs)]` has no repeats and the same members as `xs` |
| Seqs.DedupFirstOccurrenceOrder | server/routes/interview.js:128-130 | `[...new Set(xs)]` lists the members in the order of their first occurrence in `xs` |
| Seqs.SameElementsSameLength | server/routes/interview.js:133 | two duplicate-free lists with the same members are equally long |
| Seqs.LastIndexOf | server/services/resumeProcessor.js:16 | the last position of an element, or -1 exactly when it is absent |
| Seqs.SumBounds | server/services/interviewService.js:161 | a sum of scores in `[lo, hi]` lies between `lo` and `hi` times their count |
| QuestionGenerator.CommonWords | server/services/questionGenerator.js:83 | the common words are exactly the words of the first text that occur in the second, no more than it has |
| QuestionGenerator.Similarity | server/services/questionGenerator.js:80-85 | the overlap ratio always lies in `[0, 1]` |
| QuestionGenerator.NearDuplicateIsAboveThreshold | server/services/questionGenerator.js:92 | the integer test is exactly `similarity > 0.7` |
| QuestionGenerator.SelfSimilarity | server/services/questionGenerator.js:80-85 | a question has similarity 1 to itself, so it is its own near duplicate |
| QuestionGenerator.CaseVariantIsNearDuplicate | server/services/questionGenerator.js:81-82 | two questions equal up to letter case have similarity 1 |
| QuestionGenerator.SimilarityIsAsymmetric | server/services/questionGenerator.js:81-84 | the ratio divides by the first argument's word count, so for distinct words `w` and `v`, `similarity(w, "w v")` is 1 while `similarity("w v", w)` is 0.5 |
| QuestionGenerator.RepeatedWordsCount | server/services/questionGenerator.js:83 | repeated words count every time: `"w w w v"` is a near duplicate of `w` although it has only two distinct words |
| QuestionGenerator.TrimmedLines | server/services/questionGenerator.js:89-91 | one trimmed line per newline-separated piece of the reply |
| QuestionGenerator.FilterQuestions | server/services/questionGenerator.js:88-93 | every kept question is a non-blank trimmed line that no asked question is a near duplicate of; every such line is kept; the kept lines stay in input order |
| QuestionGenerator.FilterWithNothingAsked | server/services/questionGenerator.js:92 | with nothing asked, filtering only drops blank lines |
| QuestionGenerator.FilterDropsRepeats | server/services/questionGenerator.js:92 | no kept question equals an asked one up to letter case |
| QuestionGenerator.FirstBatch | server/services/questionGenerator.js:110 | `slice(0, 5)` is a prefix of length `min(5, n)` |
| QuestionGenerator.Batch | server/services/questionGenerator.js:106-110 | a batch succeeds exactly when the reply arrives, and it is the first up to five filtered questions |
| QuestionGenerator.BasicQuestions | server/services/questionGenerator.js:96-115 | the basic batch fails exactly when the call fails; it holds at most five questions and is a prefix of the filtered reply |
| QuestionGenerator.TechnicalQuestions | server/services/questionGenerator.js:118-141 | the technical batch fails when the branch lookup throws or the call fails; otherwise it is a prefix of at most five filtered questions |
| QuestionGenerator.Screen | server/services/questionGenerator.js:166-170 | a candidate is refused exactly when its trimmed text is blank or near an asked question; an accepted one is returned trimmed |
| QuestionGenerator.AttemptFrom | server/services/questionGenerator.js:160-175 | the retry loop makes at most five calls and fails only with a service failure or "no unique question" |
| QuestionGenerator.AttemptFromSkipsRejected | server/services/questionGenerator.js:163-173 | every call before the last one returned a refused candidate |
| QuestionGenerator.AttemptFromFound | server/services/questionGenerator.js:166-170 | a returned question is the screened text of the last call made |
| QuestionGenerator.AttemptFromFailure | server/services/questionGenerator.js:164 | a service failure comes from the last call made |
| QuestionGenerator.AttemptFromExhausted | server/services/questionGenerator.js:163-175 | the loop gives up exactly when all remaining candidates are refused, and then it has made all five calls |
| QuestionGenerator.DynamicQuestion | server/services/questionGenerator.js:144-180 | a follow-up question is accepted against the asked questions and trimmed; at most five calls; a branch whose lookup throws fails before any call |
| QuestionGenerator.DynamicWithNothingAsked | server/services/interviewService.js:52-56 | at the live call site nothing is asked, so the follow-up fails as a duplicate exactly when all five replies are blank |
| QuestionGenerator.RepeatsExhaustAttempts | server/services/questionGenerator.js:163-175 | a model that keeps repeating an asked question uses all five attempts and fails |
| QuestionGenerator.AskedIsScreenedOut | server/services/questionGenerator.js:168 | an asked question never passes the screen again |
| QuestionGenerator.CoreTopics | server/services/questionGenerator.js:183-194 | the five branches get their own topics; any other branch gets `['basic engineering topics']`; the topics are never empty; an inherited property name makes the lookup throw |
| QuestionGenerator.CoreTopicsKeys | server/services/questionGenerator.js:184-193 | the table has exactly five keys, and the lookup is case-sensitive |
| InterviewService.StartInterview | server/services/interviewService.js:18-37 | the session is reset; the questions are the basic batch followed by the technical one, at most ten, and stay empty if either call fails; the invariant holds |
| InterviewService.StartWithoutFiltering | server/services/interviewService.js:29-31 | with nothing asked, the questions are the first five non-blank lines of each reply |
| InterviewService.BlankRepliesStartEmpty | server/services/interviewService.js:29-31 | blank replies start an interview with no questions |
| InterviewService.GetNextQuestion | server/services/interviewService.js:39-69 | returns the question at the index with no state change; returns null exactly from index 35 on; below that, past the end of the list it succeeds exactly when the follow-up generation does, appends exactly that question, changes nothing else, returns `undefined` if the index is past the new end, and on a failed generation throws its error with the session unchanged |
| InterviewService.FollowUpIsTrimmed | server/services/interviewService.js:52-64 | at the end of the list the appended follow-up is returned, and it is non-blank and trimmed |
| InterviewService.QuestionLabel | server/services/interviewService.js:101 | `question \|\| 'Unknown'`: a non-empty question is kept, a missing or empty one becomes `Unknown` |
| InterviewService.ScoreResponse | server/services/interviewService.js:78-96 | the score is in `[0, 10]`; it is 2 for an empty or "No speech detected" transcript and for a failed call; otherwise it is what `parseInt` reads from the trimmed reply exactly when that number lies in `[0, 10]`, and 2 when it is NaN or out of range |
| InterviewService.ScoreOfNumeral | server/services/interviewService.js:86-93 | a reply holding one numeral, with white space around it, an optional sign, leading zeros or trailing text not starting with a digit (`"7\n"`, `" 7"`, `"+7"`, `"07"`, `"7/10"`), scores its value when that lies in `[0, 10]` and 2 otherwise |
| InterviewService.ScoreOfParsed | server/services/interviewService.js:88-93 | a reply that `parseInt` reads, after trimming, as a number scores that number when it lies in `[0, 10]` and 2 otherwise |
| InterviewService.ScoreOutOfRange | server/services/interviewService.js:90-91 | a reply of a number above 10, or of any negative number, scores 2 |
| InterviewService.DecimalIsTrimmed | server/services/interviewService.js:88 | a reply that starts with a numeral and does not end in white space is unchanged by `trim` |
| InterviewService.RecordResponse | server/services/interviewService.js:71-113 | a failed recognition throws a recognition error and changes nothing; otherwise exactly one response, score and placeholder feedback item are appended, the index moves on by one and nothing else changes |
| InterviewService.IndexCanPassQuestions | server/services/interviewService.js:106 | an answer recorded with no question showing moves the index past the end, and the next call then appends a question but returns `undefined` |
| InterviewService.FillItem | server/services/interviewService.js:127-138 | an item keeps its question, answer and score; it gets the parsed feedback and suggestion, each fallback for a missing or empty field, and both error texts when the call fails |
| InterviewService.FillFrom | server/services/interviewService.js:118-139 | each feedback item is filled from its own reply, one for one |
| InterviewService.GetResults | server/services/interviewService.js:159-174 | the total is the sum of the scores, the maximum is ten per answer, and the percentage is total over maximum times 100, or 0 when nothing was answered |
| InterviewService.ResultsBounds | server/services/interviewService.js:161-163 | with scores in `[0, 10]` the total lies between 0 and the maximum, and the percentage between 0 and 100 |
| InterviewService.ResultsExample | server/services/interviewService.js:161-163 | scores 8, 6, 10 and 4 give 28 of 40 points, 70 percent |
| InterviewService.EndInterview | server/services/interviewService.js:115-157 | every item is filled from its own reply; the total, maximum and percentage are those of the session's scores (percentage times maximum equals total times 100, 0 with no answers, within `[0, 100]` for valid scores); the session is then back at the initial record |
| InterviewService.ResultsAfterEnd | server/services/interviewService.js:141-151 | after the reset the results are empty |
| InterviewService.ApplyPreservesValid | server/services/interviewService.js:8-174 | every call keeps one response, score and feedback item per recorded answer, scores in `[0, 10]`, and at most 35 questions |
| InterviewService.RunPreservesValid | server/services/interviewService.js:8-174 | any sequence of calls keeps the invariant, so the results read at any point are in range |
| InterviewService.InitialIsValid | server/services/interviewService.js:8-16 | the initial record satisfies the invariant and has empty results |
| ResumeProcessor.InferBranch | server/services/resumeProcessor.js:84-94 | the label is one of five; no skills give `Unknown`; each label is returned exactly when its group matches and no earlier group does |
| ResumeProcessor.InferBranchIsFirstGroup | server/services/resumeProcessor.js:88-93 | the label is the first keyword group, in priority order, that the lower-cased skill set meets |
| ResumeProcessor.InferBranchDependsOnSkillSet | server/services/resumeProcessor.js:86 | the label depends only on the set of lower-cased skills |
| ResumeProcessor.InferBranchIgnoresOrderAndRepeats | server/services/resumeProcessor.js:86 | reordering or repeating skills does not change the label |
| ResumeProcessor.InferBranchIgnoresCase | server/services/resumeProcessor.js:86 | changing the case of skills does not change the label |
| ResumeProcessor.WholeSkillMatching | server/services/resumeProcessor.js:88 | matching is on whole skills: `python 3` is no CSE skill |
| ResumeProcessor.CapitalisedSkillMatches | server/services/resumeProcessor.js:86-88 | `Python` is a CSE skill |
| ResumeProcessor.InferredBranchTopics | server/services/questionGenerator.js:193 | of the inferred labels only `Civil` is a core-topic key; every other label gets the fallback topics |
| ResumeProcessor.Extname | server/services/resumeProcessor.js:16 | the extension is empty or a dot followed by no dot or slash, and it ends the last path segment without being all of it |
| ResumeProcessor.ExtnameOfFile | server/services/resumeProcessor.js:16 | a file `dir/stem.ext` has the extension `.ext` |
| ResumeProcessor.NoExtname | server/services/resumeProcessor.js:16-17 | a name without a dot, or a dot file with no other dot, has no extension |
| ResumeProcessor.CheckExtension | server/services/resumeProcessor.js:16-27 | a path passes exactly when its lower-cased extension is `.pdf`; no extension and any other extension are the two errors |
| ResumeProcessor.CheckExtensionOfFile | server/services/resumeProcessor.js:16-27 | `dir/stem.ext` passes exactly when `.ext` lower-cases to `.pdf` |
| ResumeProcessor.PdfInAnyCase | server/services/resumeProcessor.js:16-20 | `.pdf` and `.PDF` are both accepted |
| ResumeProcessor.DotFileHasNoExtension | server/services/resumeProcessor.js:16-17 | a file named `.pdf` has no extension and is refused |
| ResumeProcessor.ExtractSkillsAndProjects | server/services/resumeProcessor.js:44-82 | both fields become arrays: a non-array field becomes empty, and a failed call or parse gives two empty lists |
| ResumeProcessor.FailedExtractionIsUnknown | server/services/resumeProcessor.js:78-94 | a failed extraction leaves the branch `Unknown` |
| ResumeProcessor.ProcessResume | server/services/resumeProcessor.js:9-41 | an inaccessible file, a missing extension and a non-PDF extension each fail with their own error; success means an accessible, readable `.pdf`, and returns the extracted lists with the branch inferred from the skills |
| InterviewRoutes.ConfiguredIsWellFormed | server/routes/interview.js:31-79 | the tables have no empty role; every role requires 3 to 8 skills, none twice after lower-casing; every tip is at least 30 characters long |
| InterviewTables.RoleSkillsCanonical | server/routes/interview.js:31-53 | every role's list is free of repeats and written in lower case |
| InterviewRoutes.NormaliseRole | server/routes/interview.js:105 | a missing role becomes empty; a given one is lower-cased and trimmed |
| InterviewRoutes.RoleCheckAdmitsInheritedNames | server/routes/interview.js:105-108 | `constructor` and `__proto__` pass the role check as written although no role has those names |
| InterviewRoutes.RoleChecksAgree | server/routes/interview.js:106 | for every role other than an inherited property name, the check as written and the table-key check agree |
| InterviewRoutes.LowerAll | server/routes/interview.js:121-122 | lower-cases every skill, one for one |
| InterviewRoutes.FoundSkillsSpec | server/routes/interview.js:128-130 | found skills have no repeats, are exactly the resume skills that are required, and follow the resume's order of first occurrence |
| InterviewRoutes.MissingSkillsSpec | server/routes/interview.js:133 | missing skills are exactly the required ones not found, in required order; found and missing split the required list, and for a list without repeats their counts add up to its length |
| InterviewRoutes.ScoreBasisPoints | server/routes/interview.js:136 | the score in hundredths of a percent is `found / required * 10000` rounded half up |
| InterviewRoutes.ScoreRange | server/routes/interview.js:136 | the score lies between 0 and 100 percent; it is 100 exactly when all skills are found and 0 exactly when none are |
| InterviewRoutes.ScoreExample | server/routes/interview.js:136 | four of six skills give 66.67 percent, one of eight gives 12.5 |
| InterviewRoutes.Suggestion | server/routes/interview.js:139-141 | a skill with a non-empty tip gets the tip; any other skill gets "Consider learning ... to improve your profile." |
| InterviewRoutes.Suggestions | server/routes/interview.js:139-141 | one suggestion per missing skill, in the same order |
| InterviewRoutes.SuggestionsNonEmpty | server/routes/interview.js:139-141 | no suggestion is empty, and the generic advice names the skill |
| InterviewRoutes.Analyze | server/routes/interview.js:121-141 | a skill is found exactly when the resume lists it in some case, without repeats and in the resume's order; the missing skills are exactly the role's others, and the two counts add up to the role's; one suggestion per missing skill; the score lies in `[0, 100]` percent, is 100 exactly when nothing is missing and 0 exactly when nothing is found |
| InterviewRoutes.AnalyzeResumeAsWritten | server/routes/interview.js:94-168 | no file gives 400 before anything else; a role the written check refuses gives 400; for a role it admits, a processing error gives 400, a processed resume gives the analysis when the role is in the table and 500 otherwise, so 500 only for an inherited property name |
| InterviewRoutes.AnalyzeResume | server/routes/interview.js:94-168 | no file gives 400; an unsupported role gives 400 before the resume is processed; for a supported role, a processing error gives 400 with its reason and a processed resume gives exactly the analysis of its skills; a success is always such an analysis; never a 500 |
| InterviewRoutes.AnalyzeRoutesAgree | server/routes/interview.js:105-108 | the written route and the corrected one give the same answer for every role other than an inherited property name |
| InterviewRoutes.UnlistedRoleCrashes | server/routes/interview.js:106-121 | a role that passes the written check but is no table key answers 500 after the resume was processed; the corrected route answers 400 |
| InterviewRoutes.ConstructorRoleCrashes | server/routes/interview.js:105-121 | with the role `constructor` and a readable PDF the written route answers 500 where the corrected one answers 400 |
| InterviewRoutes.RecordResponseRoute | server/routes/interview.js:239-254 | falsy audio other than the empty string is refused with 400 before the session is touched; anything else is recorded |
| InterviewRoutes.AudioCheckCases | server/routes/interview.js:243-246 | `undefined`, `null`, `false`, `0` and `NaN` are refused; the empty string and every truthy value get through |

## Left out

- The text-generation, speech-recognition and speech-synthesis calls are replies passed in as parameters. Prompt contents and model names are not modelled.
- The missing-API-key check that each generator runs first is folded into a failed reply.
- `synthesizeSpeech` in `getNextQuestion` is taken not to throw. The speech processor is not part of this model.
- `JSON.parse`, the fenced-block regular expression in `endInterview` and the brace slicing in skill extraction are abstracted. Their outcome is a parameter: a failure, or the parsed fields.
- The parsed `feedback` and `suggestion` fields are strings or missing. A non-string truthy value, which the source would store as is, is not modelled.
- The extracted skill arrays hold strings. An array holding a non-string would make `toLowerCase` throw, and this is not modelled.
- A non-string `job_role` is not modelled; its `toLowerCase` call would throw.
- `question` in record-response is taken to be a string or missing. A non-string value is not modelled: the source stores a truthy one (a number, an object) as it is and labels a falsy one (`0`, `false`) 'Unknown'.
- The start route's `skills` is taken to be an array of strings and `branch` a string. A missing or non-array `skills` makes `skills.length` or `skills.join` throw in both question generators, after `startInterview` has already reset the session and again on every follow-up question; this is not modelled.
- `toLowerCase` is modelled for ASCII letters only. Other cased letters are left unchanged.
- `percentage` is an exact real, not a double. The analyze-resume score is integer hundredths of a percent, without the double rounding of `Math.round`.
- The shared `sessionState` is modelled one call at a time, with no interleaving of concurrent requests.
- File access, PDF reading and `fs.unlink` are booleans or omitted. Deleting the upload cannot fail a call, so it has no effect on the results.
- The upload-resume, start, next-question, end-interview and results routes only pass data through. The operations they call are modelled.
- Multer's upload handling is upload plumbing and is not modelled: its storage names the file, its file filter rejects any upload whose MIME type is not `application/pdf`, and its size limit rejects uploads over 5 MB. Both rejections reach the server's default error answer before the route handler runs.
- Console logging is omitted.
- The branch-name list in the routes file is unused by the core and is not modelled.
- `generateDynamicQuestion` builds `responses.slice(-1)[0] || ''` and the skill list only for the prompt, so neither is modelled.
- ResumeProcessor.PdfInAnyCase: states only the `.pdf` and `.PDF` spellings. `CheckExtensionOfFile` covers every mixed-case spelling through the lower-cased extension.
- InterviewRoutes.MissingSkillsSpec: proves the count equation only for a required list without repeats. `ConfiguredIsWellFormed` proves that every configured list is one.
- InterviewRoutes.ScoreRange: proves the exact ends of the range for at most 10000 required skills. Beyond that, rounding to two decimals can reach 100 percent with a skill missing; the configured lists hold at most eight.

## Findings

| source | as written | input that shows it | evidently intended | confidence | as-written member | corrected member |
|---|---|---|---|---|---|---|
| server/routes/interview.js:106 | `!roleSkills[role]` also accepts names every object inherits. A lower-cased role can be `constructor` or `__proto__`; its lookup is a function or `Object.prototype`, so `.map` at line 121 throws after the resume was processed, and the route answers 500 | `job_role` = `constructor` with a readable PDF upload (InterviewRoutes.ConstructorRoleCrashes) | refuse any role that is not a key of the table with 400, before processing the resume | not executed | InterviewRoutes.AnalyzeResumeAsWritten | InterviewRoutes.AnalyzeResume |

=== FILE: interview_routes.dfy ===
/** The request-level logic of the interview routes: matching a resume's
    skills against the skills a job role requires (role validation, found
    and missing skills, the score and the suggestions), and the audio check
    in front of `recordResponse`. */
module InterviewRoutes {
  import opened Wrappers
  import opened Seqs
  import opened JsText
  import opened QuestionGenerator
  import opened InterviewService
  import opened ResumeProcessor
  import opened InterviewTables

  /** The two tables the routes consult. */
  datatype Config = Config(roleSkills: map<string, seq<string>>, tips: map<string, string>)

  const Configured: Config := Config(RoleSkills, SkillSuggestions)

  /** What the routes rely on of the tables: no role is the empty string;
      every role requires between one and 10000 skills, none twice once
      lower-cased; no tip is empty. */
  predicate WellFormed(c: Config) {
    && "" !in c.roleSkills
    && (forall role :: role in c.roleSkills ==> 0 < |c.roleSkills[role]| <= 10000)
    && (forall role :: role in c.roleSkills ==> NoDup(LowerAll(c.roleSkills[role])))
    && (forall skill :: skill in c.tips ==> |c.tips[skill]| > 0)
  }

  /** The configured tables are well formed: every role requires between
      three and eight skills, and every tip is at least 30 characters long. */
  lemma ConfiguredIsWellFormed()
    ensures WellFormed(Configured)
    ensures forall role :: role in RoleSkills ==> 3 <= |RoleSkills[role]| <= 8
    ensures forall skill :: skill in SkillSuggestions ==> |SkillSuggestions[skill]| >= 30
  {
    NoEmptyRole();
    EveryRoleRequiresSkills();
    RoleSkillsCanonical();
    forall role | role in RoleSkills
      ensures NoDup(LowerAll(RoleSkills[role]))
    {
      LowerAllOfCanonical(RoleSkills[role]);
    }
    EveryTipIsASentence();
  }

  lemma NoEmptyRole()
    ensures "" !in RoleSkills
  {
  }

  lemma EveryRoleRequiresSkills()
    ensures forall role :: role in RoleSkills ==> 3 <= |RoleSkills[role]| <= 8
  {
  }

  lemma EveryTipIsASentence()
    ensures forall skill :: skill in SkillSuggestions ==> |SkillSuggestions[skill]| >= 30
  {
  }

  /** `constructor` and `__proto__` are inherited names and no configured
      role. */
  lemma InheritedNamesAreNoRoles()
    ensures "constructor" in ObjectPrototypeNames && "constructor" !in Configured.roleSkills
    ensures "__proto__" in ObjectPrototypeNames && "__proto__" !in Configured.roleSkills
  {
    ConstructorIsNoRole();
    ProtoIsNoRole();
  }

  lemma ConstructorIsNoRole()
    ensures "constructor" !in RoleSkills
  {
  }

  lemma ProtoIsNoRole()
    ensures "__proto__" !in RoleSkills
  {
  }

  // ---------------------------------------------------------------------
  // Role validation

  /** `req.body.job_role?.toLowerCase()?.trim() || ''`. */
  function NormaliseRole(jobRole: Option<string>): (r: string)
    ensures jobRole.None? ==> r == ""
    ensures jobRole.Some? ==> r == Trim(Lower(jobRole.value))
  {
    if jobRole.None? then "" else Trim(Lower(jobRole.value))
  }

  /** The check `!role || !roleSkills[role]` as written: the lookup is
      truthy for the table's own keys and also for names every object
      inherits, and a normalised role is lower case, so `constructor` and
      `__proto__` pass. */
  predicate RoleCheckAsWritten(c: Config, role: string) {
    role != "" && (role in c.roleSkills || role in ObjectPrototypeNames)
  }

  /** The evidently intended check: the role must be one of the table's
      own keys. */
  predicate SupportedRole(c: Config, role: string) {
    role in c.roleSkills
  }

  /** A role already in lower case without edge white space normalises to
      itself. */
  lemma NormaliseCanonical(role: string)
    requires Lower(role) == role && IsTrimmed(role)
    ensures NormaliseRole(Some(role)) == role
  {
    TrimOfTrimmed(role);
  }

  lemma ConstructorIsLower()
    ensures Lower("constructor") == "constructor"
  {
    LowerOfLowerCase("constructor");
  }

  lemma ConstructorIsTrimmed()
    ensures IsTrimmed("constructor")
  {
  }

  lemma ProtoIsLower()
    ensures Lower("__proto__") == "__proto__"
  {
    LowerOfLowerCase("__proto__");
  }

  lemma ProtoIsTrimmed()
    ensures IsTrimmed("__proto__")
  {
  }

  /** The inherited names `constructor` and `__proto__` survive
      normalisation; the check as written lets them through although they
      are no job role, while the intended check refuses them. */
  lemma RoleCheckAdmitsInheritedNames()
    ensures RoleCheckAsWritten(Configured, NormaliseRole(Some("constructor")))
    ensures !SupportedRole(Configured, NormaliseRole(Some("constructor")))
    ensures RoleCheckAsWritten(Configured, NormaliseRole(Some("__proto__")))
    ensures !SupportedRole(Configured, NormaliseRole(Some("__proto__")))
  {
    ConstructorIsLower();
    ConstructorIsTrimmed();
    NormaliseCanonical("constructor");
    ProtoIsLower();
    ProtoIsTrimmed();
    NormaliseCanonical("__proto__");
    InheritedNamesAreNoRoles();
  }

  /** Outside the inherited names the two checks agree. */
  lemma RoleChecksAgree(c: Config, role: string)
    requires WellFormed(c) && role !in ObjectPrototypeNames
    ensures RoleCheckAsWritten(c, role) <==> SupportedRole(c, role)
  {
  }

  // ---------------------------------------------------------------------
  // Matching

  /** `xs.map(s => s.toLowerCase())`. */
  function LowerAll(xs: seq<string>): (r: seq<string>)
    ensures |r| == |xs|
    ensures forall i :: 0 <= i < |xs| ==> r[i] == Lower(xs[i])
  {
    if |xs| == 0 then [] else [Lower(xs[0])] + LowerAll(xs[1..])
  }

  /** A canonical list is its own lower case. */
  lemma LowerAllOfCanonical(xs: seq<string>)
    requires Canonical(xs)
    ensures LowerAll(xs) == xs
  {
    forall i | 0 <= i < |xs|
      ensures LowerAll(xs)[i] == xs[i]
    {
      LowerOfLowerCase(xs[i]);
    }
  }

  /** `[...new Set(skills.filter(skill => requiredSkillsSet.has(skill)))]`. */
  function FoundSkills(skills: seq<string>, required: seq<string>): seq<string> {
    Dedup(Filter(skills, s => s in required))
  }

  /** `requiredSkills.filter(skill => !foundKeywords.includes(skill))`. */
  function MissingSkills(required: seq<string>, found: seq<string>): seq<string> {
    Filter(required, s => s !in found)
  }

  /** The found skills: each once, each both required and in the resume,
      and in the order of their first occurrence in the resume. */
  lemma FoundSkillsSpec(skills: seq<string>, required: seq<string>)
    ensures var found := FoundSkills(skills, required);
      && NoDup(found)
      && (forall x :: x in found <==> x in skills && x in required)
      && (forall i, j :: 0 <= i < j < |found| ==> IndexOf(skills, found[i]) < IndexOf(skills, found[j]))
  {
    var p := s => s in required;
    var kept := Filter(skills, p);
    var found := Dedup(kept);
    DedupFirstOccurrenceOrder(kept);
    forall i, j | 0 <= i < j < |found|
      ensures IndexOf(skills, found[i]) < IndexOf(skills, found[j])
    {
      FilterKeepsOrder(skills, p, found[i], found[j]);
    }
  }

  /** The missing skills: the required ones not found, in required order;
      found and missing split the required skills, and for a duplicate-free
      requirement their counts add up. */
  lemma MissingSkillsSpec(skills: seq<string>, required: seq<string>)
    ensures var found := FoundSkills(skills, required);
      var missing := MissingSkills(required, found);
      && (forall x :: x in missing <==> x in required && x !in found)
      && IsSubsequence(missing, required)
      && (forall x :: x in required ==> (x in found) != (x in missing))
      && (NoDup(required) ==> |found| + |missing| == |required|)
  {
    var found := FoundSkills(skills, required);
    var missing := MissingSkills(required, found);
    if NoDup(required) {
      var present := Filter(required, s => s in found);
      FilterComplementCount(required, s => s !in found, s => s in found);
      FilterNoDup(required, s => s in found);
      SameElementsSameLength(found, present);
    }
  }

  /** `Math.round(x)` for `x = 10000 * found / required`: the score in
      hundredths of a percent, rounded half up. */
  function ScoreBasisPoints(found: nat, required: nat): (bp: int)
    requires required > 0
    ensures 2 * bp * required - required <= 20000 * found < 2 * bp * required + required
  {
    (20000 * found + required) / (2 * required)
  }

  /** The score lies between 0 and 100 percent; it is 100 percent exactly
      when every required skill was found and 0 exactly when none was (for
      up to 10000 required skills). */
  lemma ScoreRange(found: nat, required: nat)
    requires 0 < required <= 10000 && found <= required
    ensures 0 <= ScoreBasisPoints(found, required) <= 10000
    ensures ScoreBasisPoints(found, required) == 10000 <==> found == required
    ensures ScoreBasisPoints(found, required) == 0 <==> found == 0
  {
    var bp := ScoreBasisPoints(found, required);
    var lo := (2 * bp - 1) * required;
    var hi := (2 * bp + 1) * required;
    assert lo == 2 * bp * required - required && hi == 2 * bp * required + required;
    assert lo <= 20000 * found < hi;
    MulLess(0, 2 * bp + 1, required);
    MulLess(2 * bp - 1, 20001, required);
    if found == required {
      MulLess(20000, 2 * bp + 1, required);
    }
    if found == 0 {
      MulLess(2 * bp - 1, 1, required);
    }
  }

  /** Multiplying by a positive number keeps a strict order. */
  lemma MulLess(a: int, b: int, n: int)
    requires n > 0 && a * n < b * n
    ensures a < b
  {
  }

  /** Four of six skills give 66.67 percent: 6666.67 rounds up. */
  lemma ScoreExample()
    ensures ScoreBasisPoints(4, 6) == 6667
    ensures ScoreBasisPoints(1, 8) == 1250
  {
  }

  /** `tips[skill] || \`Consider learning ${skill} to improve your
      profile.\``. */
  function Suggestion(tips: map<string, string>, skill: string): (r: string)
    ensures skill in tips && tips[skill] != "" ==> r == tips[skill]
    ensures skill !in tips || tips[skill] == "" ==> r == "Consider learning " + skill + " to improve your profile."
  {
    if skill in tips && tips[skill] != "" then tips[skill]
    else "Consider learning " + skill + " to improve your profile."
  }

  /** `missingSkills.map(...)`: one suggestion per missing skill, in order. */
  function Suggestions(tips: map<string, string>, missing: seq<string>): (r: seq<string>)
    ensures |r| == |missing|
    ensures forall i :: 0 <= i < |missing| ==> r[i] == Suggestion(tips, missing[i])
  {
    if |missing| == 0 then [] else [Suggestion(tips, missing[0])] + Suggestions(tips, missing[1..])
  }

  /** Every suggestion is a non-empty sentence, and a skill without a tip
      gets the generic advice naming it. */
  lemma SuggestionsNonEmpty(tips: map<string, string>, missing: seq<string>)
    ensures forall i :: 0 <= i < |missing| ==> Suggestions(tips, missing)[i] != ""
    ensures forall i :: 0 <= i < |missing| && missing[i] !in tips ==>
      missing[i] <= Suggestions(tips, missing)[i][|"Consider learning "|..]
  {
    forall i | 0 <= i < |missing|
      ensures Suggestions(tips, missing)[i] != ""
    {
      SuggestionNonEmpty(tips, missing[i]);
    }
    forall i | 0 <= i < |missing| && missing[i] !in tips
      ensures missing[i] <= Suggestions(tips, missing)[i][|"Consider learning "|..]
    {
      GenericSuggestionNames(missing[i]);
    }
  }

  lemma SuggestionNonEmpty(tips: map<string, string>, skill: string)
    ensures |Suggestion(tips, skill)| > 0
  {
    if !(skill in tips && tips[skill] != "") {
      assert |Suggestion(tips, skill)| >= |"Consider learning "|;
    }
  }

  /** The generic advice names the skill right after its opening words. */
  lemma GenericSuggestionNames(skill: string)
    ensures var r := "Consider learning " + skill + " to improve your profile.";
      |r| >= |"Consider learning "| && skill <= r[|"Consider learning "|..]
  {
    var head := "Consider learning ";
    var tail := " to improve your profile.";
    var r := head + skill + tail;
    assert r == head + (skill + tail);
    assert r[|head|..] == skill + tail;
  }

  // ---------------------------------------------------------------------
  // The analyze-resume route

  /** What the route answers with `analysis`: the role, the score in
      hundredths of a percent, the found and missing skills and the
      suggestions. */
  datatype Analysis = Analysis(role: string, scoreBasisPoints: int, found: seq<string>, missing: seq<string>, suggestions: seq<string>)

  /** Why the route failed. `NoFile`, `InvalidRole` and `ProcessingFailed`
      answer 400; `Crashed` is an exception that reaches the route's outer
      handler, which deletes the upload and passes the error on to the
      server's default handler, a 500 answer. */
  datatype AnalyzeError = NoFile | InvalidRole | ProcessingFailed(reason: ResumeError) | Crashed

  /** The matching step, for a role in the table: the found skills, the
      missing ones, the share found and one suggestion per missing skill.
      The analysis splits the role's skills into found and missing ones: a
      skill is found exactly when the resume lists it in some case, the
      found skills keep the resume's order, their counts add up to the
      role's, and the score is full exactly when nothing is missing and
      zero exactly when nothing is found. */
  function Analyze(c: Config, role: string, skills: seq<string>): (r: Analysis)
    requires WellFormed(c) && SupportedRole(c, role)
    ensures r.role == role
    ensures r.found == FoundSkills(LowerAll(skills), LowerAll(c.roleSkills[role]))
    ensures r.missing == MissingSkills(LowerAll(c.roleSkills[role]), r.found)
    ensures r.suggestions == Suggestions(c.tips, r.missing)
    ensures r.scoreBasisPoints == ScoreBasisPoints(|r.found|, |c.roleSkills[role]|)
    ensures var required := LowerAll(c.roleSkills[role]);
      && (forall x :: x in r.found <==> x in LowerAll(skills) && x in required)
      && (forall i, j :: 0 <= i < j < |r.found| ==> IndexOf(LowerAll(skills), r.found[i]) < IndexOf(LowerAll(skills), r.found[j]))
      && (forall x :: x in r.missing <==> x in required && x !in r.found)
      && NoDup(r.found)
      && |r.found| + |r.missing| == |required|
      && |r.suggestions| == |r.missing|
      && 0 <= r.scoreBasisPoints <= 10000
      && (r.scoreBasisPoints == 10000 <==> r.missing == [])
      && (r.scoreBasisPoints == 0 <==> r.found == [])
  {
    var required := LowerAll(c.roleSkills[role]);
    var found := FoundSkills(LowerAll(skills), required);
    var missing := MissingSkills(required, found);
    FoundSkillsSpec(LowerAll(skills), required);
    MissingSkillsSpec(LowerAll(skills), required);
    ScoreRange(|found|, |required|);
    Analysis(role, ScoreBasisPoints(|found|, |required|), found, missing, Suggestions(c.tips, missing))
  }

  /** The analyze-resume route as written: an uploaded file, a role that
      passes `RoleCheckAsWritten`, then resume processing; for an inherited
      name the table lookup is no array, so `.map` throws after the resume
      was processed. */
  function AnalyzeResumeAsWritten(c: Config, filePath: Option<string>, jobRole: Option<string>,
                                  accessible: bool, pdfReadable: bool, extraction: ExtractionReply): (r: Result<Analysis, AnalyzeError>)
    requires WellFormed(c)
    ensures filePath.None? || filePath.value == "" ==> r == Err(NoFile)
    ensures r == Err(Crashed) ==> NormaliseRole(jobRole) in ObjectPrototypeNames
    ensures filePath.Some? && filePath.value != "" && !RoleCheckAsWritten(c, NormaliseRole(jobRole)) ==>
      r == Err(InvalidRole)
    ensures filePath.Some? && filePath.value != "" && RoleCheckAsWritten(c, NormaliseRole(jobRole)) ==>
      var p := ProcessResume(filePath.value, accessible, pdfReadable, extraction);
      && (p.Err? ==> r == Err(ProcessingFailed(p.error)))
      && (p.Ok? && SupportedRole(c, NormaliseRole(jobRole)) ==> r == Ok(Analyze(c, NormaliseRole(jobRole), p.value.skills)))
      && (p.Ok? && !SupportedRole(c, NormaliseRole(jobRole)) ==> r == Err(Crashed))
  {
    if filePath.None? || filePath.value == "" then Err(NoFile)
    else
      var role := NormaliseRole(jobRole);
      if !RoleCheckAsWritten(c, role) then Err(InvalidRole)
      else
        match ProcessResume(filePath.value, accessible, pdfReadable, extraction)
        case Err(e) => Err(ProcessingFailed(e))
        case Ok(resume) =>
          if SupportedRole(c, role) then Ok(Analyze(c, role, resume.skills)) else Err(Crashed)
  }

  /** The analyze-resume route with the intended role check: an unsupported
      role is refused before the resume is processed, and the route never
      crashes. */
  function AnalyzeResume(c: Config, filePath: Option<string>, jobRole: Option<string>,
                         accessible: bool, pdfReadable: bool, extraction: ExtractionReply): (r: Result<Analysis, AnalyzeError>)
    requires WellFormed(c)
    ensures filePath.None? || filePath.value == "" ==> r == Err(NoFile)
    ensures r != Err(Crashed)
    ensures filePath.Some? && filePath.value != "" ==>
      (r == Err(InvalidRole) <==> !SupportedRole(c, NormaliseRole(jobRole)))
    ensures r.Ok? ==>
      && SupportedRole(c, NormaliseRole(jobRole))
      && ProcessResume(filePath.value, accessible, pdfReadable, extraction).Ok?
      && r.value == Analyze(c, NormaliseRole(jobRole), ProcessResume(filePath.value, accessible, pdfReadable, extraction).value.skills)
    ensures filePath.Some? && filePath.value != "" && SupportedRole(c, NormaliseRole(jobRole)) ==>
      var p := ProcessResume(filePath.value, accessible, pdfReadable, extraction);
      && (p.Ok? ==> r == Ok(Analyze(c, NormaliseRole(jobRole), p.value.skills)))
      && (p.Err? ==> r == Err(ProcessingFailed(p.error)))
  {
    if filePath.None? || filePath.value == "" then Err(NoFile)
    else
      var role := NormaliseRole(jobRole);
      if !SupportedRole(c, role) then Err(InvalidRole)
      else
        match ProcessResume(filePath.value, accessible, pdfReadable, extraction)
        case Err(e) => Err(ProcessingFailed(e))
        case Ok(resume) => Ok(Analyze(c, role, resume.skills))
  }

  /** The two routes differ only for inherited names: there the written one
      processes the resume and crashes, the intended one refuses the role. */
  lemma AnalyzeRoutesAgree(c: Config, filePath: Option<string>, jobRole: Option<string>,
                           accessible: bool, pdfReadable: bool, extraction: ExtractionReply)
    requires WellFormed(c)
    ensures NormaliseRole(jobRole) !in ObjectPrototypeNames ==>
      AnalyzeResumeAsWritten(c, filePath, jobRole, accessible, pdfReadable, extraction)
        == AnalyzeResume(c, filePath, jobRole, accessible, pdfReadable, extraction)
  {
    if NormaliseRole(jobRole) !in ObjectPrototypeNames {
      RoleChecksAgree(c, NormaliseRole(jobRole));
    }
  }

  /** A role the check as written admits but the table lacks, with a
      readable PDF resume: the written route answers 500 where the intended
      one answers 400. */
  lemma UnlistedRoleCrashes(c: Config, role: string, dir: string, stem: string, extraction: ExtractionReply)
    requires WellFormed(c) && |stem| > 0 && '/' !in stem
    requires RoleCheckAsWritten(c, NormaliseRole(Some(role))) && !SupportedRole(c, NormaliseRole(Some(role)))
    ensures AnalyzeResumeAsWritten(c, Some(dir + "/" + stem + ".pdf"), Some(role), true, true, extraction) == Err(Crashed)
    ensures AnalyzeResume(c, Some(dir + "/" + stem + ".pdf"), Some(role), true, true, extraction) == Err(InvalidRole)
  {
    PdfInAnyCase(dir, stem);
  }

  /** For the role `constructor` and a readable PDF resume, the route as
      written answers 500 where the intended one answers 400, for any well
      formed tables that lack that role (as the configured ones do, see
      `ConfiguredIsWellFormed` and `InheritedNamesAreNoRoles`). */
  lemma ConstructorRoleCrashes(c: Config, dir: string, stem: string, extraction: ExtractionReply)
    requires WellFormed(c) && "constructor" !in c.roleSkills
    requires |stem| > 0 && '/' !in stem
    ensures AnalyzeResumeAsWritten(c, Some(dir + "/" + stem + ".pdf"), Some("constructor"), true, true, extraction) == Err(Crashed)
    ensures AnalyzeResume(c, Some(dir + "/" + stem + ".pdf"), Some("constructor"), true, true, extraction) == Err(InvalidRole)
  {
    ConstructorIsLower();
    ConstructorIsTrimmed();
    NormaliseCanonical("constructor");
    assert "constructor" in ObjectPrototypeNames;
    UnlistedRoleCrashes(c, "constructor", dir, stem, extraction);
  }

  // ---------------------------------------------------------------------
  // The record-response route

  /** A JSON request value, as far as truthiness goes. */
  datatype JsValue =
    | JsUndefined
    | JsNull
    | JsBool(b: bool)
    | JsNum(n: int)
    | JsNaN
    | JsString(s: string)
    | JsObject

  /** JavaScript falsiness. */
  predicate Falsy(v: JsValue) {
    v == JsUndefined || v == JsNull || v == JsBool(false) || v == JsNum(0) || v == JsNaN || v == JsString("")
  }

  /** The check `!audio && audio !== ''` refuses the audio. */
  predicate AudioRefused(audio: JsValue) {
    Falsy(audio) && audio != JsString("")
  }

  /** The record-response route: a refused audio value answers 400 and
      leaves the session alone; otherwise the answer is recorded. */
  function RecordResponseRoute(s: Session, audio: JsValue, question: Option<string>,
                               speech: SpeechReply, reply: ScoreReply): (r: Option<Step<(string, int)>>)
    ensures r.None? <==> AudioRefused(audio)
    ensures r.Some? ==> r.value == RecordResponse(s, question, speech, reply)
  {
    if AudioRefused(audio) then None else Some(RecordResponse(s, question, speech, reply))
  }

  /** Missing and falsy audio are refused, but the empty string and any
      truthy value get through. */
  lemma AudioCheckCases(v: JsValue)
    ensures AudioRefused(JsUndefined) && AudioRefused(JsNull) && AudioRefused(JsBool(false))
    ensures AudioRefused(JsNum(0)) && AudioRefused(JsNaN)
    ensures !AudioRefused(JsString(""))
    ensures !Falsy(v) ==> !AudioRefused(v)
  {
  }
}

=== FILE: interview_service.dfy ===
/** The interview session: one record that `startInterview`,
    `getNextQuestion`, `recordResponse`, `endInterview` and `getResults`
    read and replace. Every operation is a function from the session (and
    the replies of the external services it calls) to the next session and
    what the caller receives. */
module InterviewService {
  import opened Wrappers
  import opened Seqs
  import opened JsText
  import opened JsNumber
  import opened QuestionGenerator

  /** One entry of `sessionState.feedback`. `suggestion` is absent until
      the interview ends. */
  datatype FeedbackItem = FeedbackItem(
    question: string,
    response: string,
    score: int,
    feedback: string,
    suggestion: Option<string>)

  /** `sessionState`. */
  datatype Session = Session(
    skills: seq<string>,
    branch: string,
    questions: seq<string>,
    responses: seq<string>,
    index: nat,
    feedback: seq<FeedbackItem>,
    scores: seq<int>)

  /** The record the module starts with and `endInterview` restores. */
  const Initial: Session := Session([], "", [], [], 0, [], [])

  /** `getNextQuestion` stops offering questions at this index. */
  const MaxQuestions: nat := 35

  /** The score of an empty, unscorable or out-of-range answer. */
  const DefaultScore: int := 2

  /** The transcript the speech service reports for silence. */
  const NoSpeech: string := "No speech detected"

  const PendingFeedback: string := "Pending detailed analysis"
  const UnknownQuestion: string := "Unknown"
  const MissingFeedback: string := "No feedback available"
  const MissingSuggestion: string := "No suggestion provided"
  const FailedFeedback: string := "Unable to generate feedback"
  const FailedSuggestion: string := "Try providing more details in your response"

  /** Why an operation threw: question generation failed, or the speech
      service could not transcribe the recorded answer. */
  datatype ServiceError = QuestionFailed(cause: QuestionError) | RecognitionFailed

  /** The session after an operation, and what the caller receives: a value
      or the error the operation throws. */
  datatype Step<T> = Step(session: Session, output: Result<T, ServiceError>)

  /** What `getNextQuestion` returns: a question, `null` once the cap is
      reached, or `undefined` when the index points past the list. */
  datatype Next = Question(text: string) | MaxReached | Missing

  /** The speech-recognition reply for the recorded audio. */
  datatype SpeechReply = Transcript(text: string) | SpeechFailed

  /** The scoring model's reply: its text, or a failed call. */
  datatype ScoreReply = ScoreText(text: string) | ScoreFailed

  /** The feedback model's reply for one item: a failure (a failed call,
      text that is not JSON, or JSON `null`), or the parsed object's
      `feedback` and `suggestion` fields, `None` where a field is missing.
      A reply without a fenced JSON block parses as `{}`. */
  datatype FeedbackReply =
    | FeedbackFailed
    | FeedbackParsed(feedback: Option<string>, suggestion: Option<string>)

  /** What `getResults` returns. */
  datatype Results = Results(totalScore: int, maxScore: int, percentage: real, feedback: seq<FeedbackItem>)

  /** Every score in the range the scorer produces. */
  predicate ScoresInRange(scores: seq<int>) {
    forall i :: 0 <= i < |scores| ==> 0 <= scores[i] <= 10
  }

  /** The invariant the operations keep: one response, score and feedback
      item per recorded answer, the index counting them, each item holding
      its score, and no more than 35 questions. */
  predicate Valid(s: Session) {
    && |s.responses| == s.index
    && |s.scores| == s.index
    && |s.feedback| == s.index
    && ScoresInRange(s.scores)
    && (forall i :: 0 <= i < |s.feedback| ==> s.feedback[i].score == s.scores[i])
    && |s.questions| <= MaxQuestions
  }

  // ---------------------------------------------------------------------
  // startInterview

  /** `startInterview(skills, branch)`: the session is reset first, then the
      basic and the technical batch are requested, both with nothing asked;
      the question list is set only once both have arrived. */
  function StartInterview(skills: seq<string>, branch: string, basicReply: GenReply, techReply: GenReply): (r: Step<()>)
    ensures r.session.skills == skills && r.session.branch == branch
    ensures r.session.index == 0 && r.session.responses == [] && r.session.feedback == [] && r.session.scores == []
    ensures r.output.Ok? <==> BasicQuestions(basicReply, []).Ok? && TechnicalQuestions(branch, techReply, []).Ok?
    ensures r.output.Ok? ==>
      r.session.questions == BasicQuestions(basicReply, []).value + TechnicalQuestions(branch, techReply, []).value
    ensures r.output.Err? ==> r.session.questions == [] && r.output.error.QuestionFailed?
    ensures |r.session.questions| <= 2 * BatchSize
    ensures Valid(r.session)
  {
    var reset := Session(skills, branch, [], [], 0, [], []);
    match BasicQuestions(basicReply, [])
    case Err(e) => Step(reset, Err(QuestionFailed(e)))
    case Ok(basic) =>
      match TechnicalQuestions(branch, techReply, [])
      case Err(e) => Step(reset, Err(QuestionFailed(e)))
      case Ok(technical) => Step(reset.(questions := basic + technical), Ok(()))
  }

  /** With nothing asked, duplicate filtering never applies: the questions
      are the first five non-blank trimmed lines of each reply. */
  lemma StartWithoutFiltering(skills: seq<string>, branch: string, basicText: string, techText: string)
    requires CoreTopics(branch).Some?
    ensures StartInterview(skills, branch, Generated(basicText), Generated(techText))
      == Step(Session(skills, branch, FirstBatch(NonBlankLines(basicText)) + FirstBatch(NonBlankLines(techText)),
                      [], 0, [], []),
              Ok(()))
  {
    FilterWithNothingAsked(basicText);
    FilterWithNothingAsked(techText);
  }

  // ---------------------------------------------------------------------
  // getNextQuestion

  /** `getNextQuestion()`: the question at the index; past the end of the
      list, `null` from index 35 on, and otherwise one follow-up question
      (generated with nothing asked) is appended first. */
  function GetNextQuestion(s: Session, gen: nat -> GenReply): (r: Step<Next>)
    ensures s.index < |s.questions| ==> r == Step(s, Ok(Question(s.questions[s.index])))
    ensures |s.questions| <= s.index && MaxQuestions <= s.index ==> r == Step(s, Ok(MaxReached))
    ensures |s.questions| <= s.index < MaxQuestions ==>
      && r.session.(questions := s.questions) == s
      && (r.output.Ok? ==>
            |r.session.questions| == |s.questions| + 1
            && r.session.questions[..|s.questions|] == s.questions)
      && (r.output.Err? ==> r.session == s)
    ensures |s.questions| <= s.index < MaxQuestions ==>
      var follow := DynamicQuestion(s.branch, gen, []).result;
      && (r.output.Ok? <==> follow.Ok?)
      && (follow.Ok? ==> r.session.questions == s.questions + [follow.value] && r.output != Ok(MaxReached))
      && (follow.Err? ==> r.output == Err(QuestionFailed(follow.error)))
    ensures |s.questions| <= s.index < MaxQuestions && r.output.Ok? ==>
      (r.output == Ok(Missing) <==> s.index > |s.questions|)
  {
    if s.index < |s.questions| then Step(s, Ok(Question(s.questions[s.index])))
    else if s.index >= MaxQuestions then Step(s, Ok(MaxReached))
    else
      match DynamicQuestion(s.branch, gen, []).result
      case Err(e) => Step(s, Err(QuestionFailed(e)))
      case Ok(q) =>
        var grown := s.(questions := s.questions + [q]);
        assert grown.questions[..|s.questions|] == s.questions;
        Step(grown, Ok(if s.index < |grown.questions| then Question(grown.questions[s.index]) else Missing))
  }

  /** An appended follow-up question is never blank and is already trimmed,
      and it is the one returned when the index sits at the end of the list. */
  lemma FollowUpIsTrimmed(s: Session, gen: nat -> GenReply)
    requires s.index == |s.questions| < MaxQuestions
    requires GetNextQuestion(s, gen).output.Ok?
    ensures var r := GetNextQuestion(s, gen);
      var q := DynamicQuestion(s.branch, gen, []).result.value;
      r.output == Ok(Question(q)) && r.session.questions == s.questions + [q]
      && q != "" && IsTrimmed(q)
  {
  }

  // ---------------------------------------------------------------------
  // recordResponse

  /** `question || 'Unknown'`. */
  function QuestionLabel(question: Option<string>): (r: string)
    ensures r != ""
    ensures question.Some? && question.value != "" ==> r == question.value
    ensures question.None? || question.value == "" ==> r == UnknownQuestion
  {
    if question.Some? && question.value != "" then question.value else UnknownQuestion
  }

  /** The score of one answer: the default for an empty or silent
      transcript (no model call) or a failed call; otherwise `parseInt` of
      the trimmed reply, replaced by the default when it is not a number or
      lies outside `[0, 10]`. */
  function ScoreResponse(transcript: string, reply: ScoreReply): (r: int)
    ensures 0 <= r <= 10
    ensures transcript == "" || transcript == NoSpeech ==> r == DefaultScore
    ensures reply.ScoreFailed? ==> r == DefaultScore
    ensures r != DefaultScore ==> reply.ScoreText? && ParseInt(Trim(reply.text)) == Some(r)
    ensures transcript != "" && transcript != NoSpeech && reply.ScoreText?
      && ParseInt(Trim(reply.text)).Some? && 0 <= ParseInt(Trim(reply.text)).value <= 10
      ==> r == ParseInt(Trim(reply.text)).value
  {
    if transcript == "" || transcript == NoSpeech then DefaultScore
    else
      match reply
      case ScoreFailed => DefaultScore
      case ScoreText(text) =>
        match ParseInt(Trim(text))
        case None => DefaultScore
        case Some(n) => if n < 0 || n > 10 then DefaultScore else n
  }

  /** The score of a reply that holds one number: optional white space, an
      optional sign, digits (leading zeros allowed) and then anything that
      does not start with a digit (`"7"`, `" 07\n"`, `"+7/10"`,
      `"10 points"`, `"-3"`). A number from 0 to 10 is taken at its value;
      any other falls back to the default. */
  lemma ScoreOfNumeral(transcript: string, pad: string, sign: Sign, digits: string, rest: string)
    requires transcript != "" && transcript != NoSpeech
    requires forall i :: 0 <= i < |pad| ==> IsSpace(pad[i])
    requires |digits| > 0 && AllDigits(digits)
    requires |rest| == 0 || !IsDigit(rest[0])
    ensures var n := if sign == Minus then -(DigitsValue(digits) as int) else DigitsValue(digits) as int;
      ScoreResponse(transcript, ScoreText(pad + SignText(sign) + digits + rest)) == if 0 <= n <= 10 then n else DefaultScore
  {
    var text := pad + SignText(sign) + digits + rest;
    var v := ParseIntOfNumeral(pad, sign, digits, rest);
    var n := if sign == Minus then -v else v;
    assert n == if sign == Minus then -(DigitsValue(digits) as int) else DigitsValue(digits) as int;
    ScoreOfParsed(transcript, text, n);
  }

  /** A reply `parseInt` reads as `n` scores `n` when it lies in `[0, 10]`
      and the default otherwise. */
  lemma ScoreOfParsed(transcript: string, text: string, n: int)
    requires transcript != "" && transcript != NoSpeech
    requires ParseInt(Trim(text)) == Some(n)
    ensures ScoreResponse(transcript, ScoreText(text)) == if 0 <= n <= 10 then n else DefaultScore
  {
  }

  /** Digits followed by text that does not end in white space are already
      trimmed. */
  lemma DecimalIsTrimmed(n: nat, rest: string)
    requires |rest| == 0 || !IsSpace(rest[|rest| - 1])
    ensures Trim(Decimal(n) + rest) == Decimal(n) + rest
    ensures Trim("-" + Decimal(n) + rest) == "-" + Decimal(n) + rest
  {
    var d := Decimal(n);
    var t, u := d + rest, "-" + d + rest;
    DigitIsNotSpace(d[0]);
    DigitIsNotSpace(d[|d| - 1]);
    assert t[0] == d[0] && u[0] == '-';
    assert t[|t| - 1] == u[|u| - 1] == if |rest| == 0 then d[|d| - 1] else rest[|rest| - 1];
    TrimOfTrimmed(t);
    TrimOfTrimmed(u);
  }

  /** No digit is white space. */
  lemma DigitIsNotSpace(c: char)
    requires IsDigit(c)
    ensures !IsSpace(c)
  {
  }

  /** Numbers outside `[0, 10]` fall back to the default score. */
  lemma ScoreOutOfRange(transcript: string, n: nat)
    requires transcript != "" && transcript != NoSpeech
    requires n > 0
    ensures n > 10 ==> ScoreResponse(transcript, ScoreText(Decimal(n))) == DefaultScore
    ensures ScoreResponse(transcript, ScoreText("-" + Decimal(n))) == DefaultScore
  {
    DecimalIsTrimmed(n, "");
    ParseIntDecimal(n, "");
    assert Decimal(n) + "" == Decimal(n);
    assert "-" + Decimal(n) + "" == "-" + Decimal(n);
  }

  /** `recordResponse(audio, question)`: the transcript is stored, scored,
      and a placeholder feedback item is added; the index moves on by one
      whether or not a question was showing. A failed recognition throws
      before anything changes. */
  function RecordResponse(s: Session, question: Option<string>, speech: SpeechReply, reply: ScoreReply): (r: Step<(string, int)>)
    ensures speech.SpeechFailed? ==> r == Step(s, Err(RecognitionFailed))
    ensures speech.Transcript? ==>
      var score := ScoreResponse(speech.text, reply);
      && r.output == Ok((speech.text, score))
      && r.session.responses == s.responses + [speech.text]
      && r.session.scores == s.scores + [score]
      && r.session.feedback == s.feedback
           + [FeedbackItem(QuestionLabel(question), speech.text, score, PendingFeedback, None)]
      && r.session.index == s.index + 1
      && r.session.questions == s.questions
      && r.session.skills == s.skills && r.session.branch == s.branch
  {
    match speech
    case SpeechFailed => Step(s, Err(RecognitionFailed))
    case Transcript(text) =>
      var score := ScoreResponse(text, reply);
      var item := FeedbackItem(QuestionLabel(question), text, score, PendingFeedback, None);
      Step(s.(responses := s.responses + [text],
              scores := s.scores + [score],
              feedback := s.feedback + [item],
              index := s.index + 1),
           Ok((text, score)))
  }

  /** Nothing stops the index from passing the end of the question list:
      an answer recorded while no question is showing moves the index past
      the end, and the next call then generates a follow-up question but
      returns `undefined`. */
  lemma IndexCanPassQuestions(s: Session, question: Option<string>, text: string, reply: ScoreReply, gen: nat -> GenReply)
    requires s.index == |s.questions| && s.index + 1 < MaxQuestions
    requires DynamicQuestion(s.branch, gen, []).result.Ok?
    ensures var answered := RecordResponse(s, question, Transcript(text), reply).session;
      var next := GetNextQuestion(answered, gen);
      && answered.index == |answered.questions| + 1
      && next.output == Ok(Missing)
      && |next.session.questions| == |s.questions| + 1
  {
  }

  /** Blank replies start an interview with no questions at all, so the
      first call to `getNextQuestion` already generates a follow-up. */
  lemma BlankRepliesStartEmpty(skills: seq<string>, branch: string)
    requires CoreTopics(branch).Some?
    ensures StartInterview(skills, branch, Generated(""), Generated(""))
      == Step(Session(skills, branch, [], [], 0, [], []), Ok(()))
  {
    NoLinesInEmptyReply();
  }

  /** The empty text has one line, which is blank. */
  lemma NoLinesInEmptyReply()
    ensures FilterQuestions("", []) == []
  {
    FilterWithNothingAsked("");
    assert Split("", '\n') == [""];
    assert TrimmedLines("") == [""];
    var r := NonBlankLines("");
    assert forall x :: x !in r;
  }

  // ---------------------------------------------------------------------
  // endInterview and getResults

  /** `parsed.x || fallback` for a string field. */
  function OrElse(field: Option<string>, fallback: string): string {
    if field.Some? && field.value != "" then field.value else fallback
  }

  /** One pass of the feedback loop over an item. */
  function FillItem(item: FeedbackItem, reply: FeedbackReply): (r: FeedbackItem)
    ensures r.question == item.question && r.response == item.response && r.score == item.score
    ensures r.feedback != "" && r.suggestion.Some? && r.suggestion.value != ""
    ensures reply.FeedbackFailed? ==> r.feedback == FailedFeedback && r.suggestion == Some(FailedSuggestion)
    ensures reply.FeedbackParsed? ==>
      && (reply.feedback.Some? && reply.feedback.value != "" ==> r.feedback == reply.feedback.value)
      && (reply.feedback.None? || reply.feedback.value == "" ==> r.feedback == MissingFeedback)
      && (reply.suggestion.Some? && reply.suggestion.value != "" ==> r.suggestion == reply.suggestion)
      && (reply.suggestion.None? || reply.suggestion.value == "" ==> r.suggestion == Some(MissingSuggestion))
  {
    match reply
    case FeedbackFailed => item.(feedback := FailedFeedback, suggestion := Some(FailedSuggestion))
    case FeedbackParsed(f, g) =>
      item.(feedback := OrElse(f, MissingFeedback), suggestion := Some(OrElse(g, MissingSuggestion)))
  }

  /** The loop `for (let i = 0; i < feedback.length; i++)` from item `k` of
      the session on: item `i` gets reply `replies(k + i)`. */
  function FillFrom(items: seq<FeedbackItem>, replies: nat -> FeedbackReply, k: nat): (r: seq<FeedbackItem>)
    ensures |r| == |items|
    ensures forall i :: 0 <= i < |items| ==> r[i] == FillItem(items[i], replies(k + i))
  {
    if |items| == 0 then []
    else [FillItem(items[0], replies(k))] + FillFrom(items[1..], replies, k + 1)
  }

  /** `getResults()`: the sum of the scores, ten points per answer, and the
      percentage (0 when nothing was answered). */
  function GetResults(s: Session): (r: Results)
    ensures r.totalScore == Sum(s.scores) && r.maxScore == 10 * |s.scores|
    ensures r.feedback == s.feedback
    ensures r.maxScore == 0 ==> r.percentage == 0.0
    ensures r.maxScore != 0 ==> r.percentage * (r.maxScore as real) == (r.totalScore as real) * 100.0
  {
    var total := Sum(s.scores);
    var max := 10 * |s.scores|;
    Results(total, max, if max == 0 then 0.0 else (total as real / max as real) * 100.0, s.feedback)
  }

  /** With every score in `[0, 10]` the total lies between 0 and the
      maximum and the percentage between 0 and 100. */
  lemma ResultsBounds(s: Session)
    requires ScoresInRange(s.scores)
    ensures var r := GetResults(s);
      0 <= r.totalScore <= r.maxScore && 0.0 <= r.percentage <= 100.0
  {
    SumBounds(s.scores, 0, 10);
    var r := GetResults(s);
    if r.maxScore != 0 {
      PercentageBounds(r.totalScore, r.maxScore);
    }
  }

  /** `total / max * 100` stays in `[0, 100]` when `0 <= total <= max`. */
  lemma PercentageBounds(total: int, max: int)
    requires 0 <= total <= max && max > 0
    ensures 0.0 <= (total as real / max as real) * 100.0 <= 100.0
  {
    assert total as real / max as real <= 1.0;
  }

  /** Four answers scored 8, 6, 10 and 4 give 28 of 40 points, 70 percent. */
  lemma ResultsExample(s: Session)
    requires s.scores == [8, 6, 10, 4]
    ensures GetResults(s).totalScore == 28
    ensures GetResults(s).maxScore == 40
    ensures GetResults(s).percentage == 70.0
  {
    assert s.scores[..3] == [8, 6, 10] && [8, 6, 10][..2] == [8, 6] && [8, 6][..1] == [8] && [8][..0] == [];
    assert Sum([8]) == 8;
    assert Sum([8, 6]) == 14;
    assert Sum([8, 6, 10]) == 24;
  }

  /** `endInterview()`: every feedback item is filled from its own reply,
      the results are taken from the filled session, and the session is
      then reset to the initial record. It never fails. */
  function EndInterview(s: Session, replies: nat -> FeedbackReply): (r: (Results, Session))
    ensures r.1 == Initial
    ensures r.0.totalScore == Sum(s.scores) && r.0.maxScore == 10 * |s.scores|
    ensures |r.0.feedback| == |s.feedback|
    ensures forall i :: 0 <= i < |s.feedback| ==> r.0.feedback[i] == FillItem(s.feedback[i], replies(i))
    ensures r.0.maxScore == 0 ==> r.0.percentage == 0.0
    ensures r.0.maxScore != 0 ==> r.0.percentage * (r.0.maxScore as real) == (r.0.totalScore as real) * 100.0
    ensures ScoresInRange(s.scores) ==> 0.0 <= r.0.percentage <= 100.0
  {
    var filled := s.(feedback := FillFrom(s.feedback, replies, 0));
    if ScoresInRange(s.scores) then ResultsBounds(filled); (GetResults(filled), Initial)
    else (GetResults(filled), Initial)
  }

  /** After an interview ends, the results read from the fresh session are
      empty. */
  lemma ResultsAfterEnd(s: Session, replies: nat -> FeedbackReply)
    ensures GetResults(EndInterview(s, replies).1) == Results(0, 0, 0.0, [])
  {
  }

  // ---------------------------------------------------------------------
  // The invariant over runs of operations

  /** One call into the session, with the replies its external calls get. */
  datatype Op =
    | Start(skills: seq<string>, branch: string, basicReply: GenReply, techReply: GenReply)
    | NextQuestion(gen: nat -> GenReply)
    | Record(question: Option<string>, speech: SpeechReply, reply: ScoreReply)
    | End(replies: nat -> FeedbackReply)
    | ReadResults

  /** The session after one operation. */
  function Apply(s: Session, op: Op): Session {
    match op
    case Start(skills, branch, b, t) => StartInterview(skills, branch, b, t).session
    case NextQuestion(gen) => GetNextQuestion(s, gen).session
    case Record(q, speech, reply) => RecordResponse(s, q, speech, reply).session
    case End(replies) => EndInterview(s, replies).1
    case ReadResults => s
  }

  /** The session after a sequence of operations. */
  function Run(s: Session, ops: seq<Op>): Session
    decreases |ops|
  {
    if |ops| == 0 then s else Run(Apply(s, ops[0]), ops[1..])
  }

  /** Each operation keeps the invariant. */
  lemma ApplyPreservesValid(s: Session, op: Op)
    requires Valid(s)
    ensures Valid(Apply(s, op))
  {
    match op
    case Start(skills, branch, b, t) =>
    case NextQuestion(gen) =>
      var r := GetNextQuestion(s, gen);
      if |s.questions| <= s.index < MaxQuestions && r.output.Ok? {
        assert |r.session.questions| <= s.index + 1;
      }
    case Record(q, speech, reply) =>
      var r := RecordResponse(s, q, speech, reply);
      if speech.Transcript? {
        var n := |s.feedback|;
        assert r.session.feedback[n].score == r.session.scores[n];
      }
    case End(replies) =>
    case ReadResults =>
  }

  /** From the initial record, any sequence of calls keeps one response,
      score and feedback item per answer, scores in `[0, 10]` and at most 35
      questions; the results read at any point are therefore in range. */
  lemma {:induction false} RunPreservesValid(s: Session, ops: seq<Op>)
    requires Valid(s)
    ensures Valid(Run(s, ops))
    ensures var r := GetResults(Run(s, ops));
      0 <= r.totalScore <= r.maxScore && 0.0 <= r.percentage <= 100.0
    decreases |ops|
  {
    if |ops| == 0 {
      ResultsBounds(s);
    } else {
      ApplyPreservesValid(s, ops[0]);
      RunPreservesValid(Apply(s, ops[0]), ops[1..]);
    }
  }

  /** The module's starting record satisfies the invariant. */
  lemma InitialIsValid()
    ensures Valid(Initial)
    ensures GetResults(Initial) == Results(0, 0, 0.0, [])
  {
  }
}

=== FILE: interview_tables.dfy ===
/** The two tables of the interview routes: the skills each job role
    requires and advice for some skills. Each role's list is its own
    constant so that its properties can be checked one list at a time. */
module InterviewTables {
  import opened Seqs
  import opened JsText

  /** A skill list as the table writes it: no skill twice and no upper-case
      letter, so lower-casing leaves it alone. */
  predicate Canonical(xs: seq<string>) {
    NoDup(xs) && forall i :: 0 <= i < |xs| ==> NoUpper(xs[i])
  }

  const DataScientist: seq<string> := ["python", "machine learning", "data analysis", "pandas", "numpy", "tensorflow", "statistics"]
  const MachineLearningEngineer: seq<string> := ["python", "machine learning", "tensorflow", "scikit-learn", "deep learning", "pytorch"]
  const AiEngineer: seq<string> := ["python", "neural networks", "nlp", "computer vision", "tensorflow", "keras", "pytorch"]
  const WebDeveloper: seq<string> := ["html", "css", "javascript", "react", "nodejs", "express", "mongodb"]
  const FrontendDeveloper: seq<string> := ["html", "css", "javascript", "react", "redux", "tailwind"]
  const BackendDeveloper: seq<string> := ["python", "flask", "django", "rest api", "postgresql", "mysql"]
  const FullStackDeveloper: seq<string> := ["html", "css", "javascript", "nodejs", "react", "mongodb", "express", "flask"]
  const SoftwareEngineer: seq<string> := ["data structures", "algorithms", "oop", "python", "java", "c++"]
  const DataAnalyst: seq<string> := ["excel", "sql", "power bi", "tableau", "python", "pandas"]
  const DevopsEngineer: seq<string> := ["linux", "docker", "kubernetes", "jenkins", "aws", "terraform", "ci/cd"]
  const CloudEngineer: seq<string> := ["aws", "azure", "gcp", "devops", "linux", "cloudformation"]
  const MobileAppDeveloper: seq<string> := ["flutter", "react native", "android", "ios", "dart", "kotlin", "swift"]
  const AndroidDeveloper: seq<string> := ["kotlin", "java", "android studio", "xml"]
  const IosDeveloper: seq<string> := ["swift", "objective-c", "xcode"]
  const UiUxDesigner: seq<string> := ["figma", "adobe xd", "sketch", "wireframing", "prototyping"]
  const QaEngineer: seq<string> := ["test cases", "selenium", "manual testing", "automation", "pytest"]
  const SecurityAnalyst: seq<string> := ["network security", "firewall", "vulnerability scanning", "siem", "linux"]
  const NetworkEngineer: seq<string> := ["ccna", "routing", "switching", "tcp/ip", "firewalls"]
  const BlockchainDeveloper: seq<string> := ["solidity", "ethereum", "smart contracts", "web3", "ganache"]
  const GameDeveloper: seq<string> := ["unity", "unreal engine", "c#", "3d modeling", "blender"]
  const DatabaseAdministrator: seq<string> := ["sql", "mysql", "postgresql", "oracle", "backup", "tuning"]

  /** `roleSkills`: the skills each supported job role requires. */
  const RoleSkills: map<string, seq<string>> := map[
    "data scientist" := DataScientist,
    "machine learning engineer" := MachineLearningEngineer,
    "ai engineer" := AiEngineer,
    "web developer" := WebDeveloper,
    "frontend developer" := FrontendDeveloper,
    "backend developer" := BackendDeveloper,
    "full stack developer" := FullStackDeveloper,
    "software engineer" := SoftwareEngineer,
    "data analyst" := DataAnalyst,
    "devops engineer" := DevopsEngineer,
    "cloud engineer" := CloudEngineer,
    "mobile app developer" := MobileAppDeveloper,
    "android developer" := AndroidDeveloper,
    "ios developer" := IosDeveloper,
    "ui ux designer" := UiUxDesigner,
    "qa engineer" := QaEngineer,
    "security analyst" := SecurityAnalyst,
    "network engineer" := NetworkEngineer,
    "blockchain developer" := BlockchainDeveloper,
    "game developer" := GameDeveloper,
    "database administrator" := DatabaseAdministrator
  ]

  /** Every role's list is canonical. */
  lemma RoleSkillsCanonical()
    ensures forall role :: role in RoleSkills ==> Canonical(RoleSkills[role])
  {
    DataScientistHasNoRepeats();
    DataScientistIsLowerCase();
    MachineLearningEngineerHasNoRepeats();
    MachineLearningEngineerIsLowerCase();
    AiEngineerHasNoRepeats();
    AiEngineerIsLowerCase();
    WebDeveloperHasNoRepeats();
    WebDeveloperIsLowerCase();
    FrontendDeveloperHasNoRepeats();
    FrontendDeveloperIsLowerCase();
    BackendDeveloperHasNoRepeats();
    BackendDeveloperIsLowerCase();
    FullStackDeveloperHasNoRepeats();
    FullStackDeveloperIsLowerCase();
    SoftwareEngineerHasNoRepeats();
    SoftwareEngineerIsLowerCase();
    DataAnalystHasNoRepeats();
    DataAnalystIsLowerCase();
    DevopsEngineerHasNoRepeats();
    DevopsEngineerIsLowerCase();
    CloudEngineerHasNoRepeats();
    CloudEngineerIsLowerCase();
    MobileAppDeveloperHasNoRepeats();
    MobileAppDeveloperIsLowerCase();
    AndroidDeveloperHasNoRepeats();
    AndroidDeveloperIsLowerCase();
    IosDeveloperHasNoRepeats();
    IosDeveloperIsLowerCase();
    UiUxDesignerHasNoRepeats();
    UiUxDesignerIsLowerCase();
    QaEngineerHasNoRepeats();
    QaEngineerIsLowerCase();
    SecurityAnalystHasNoRepeats();
    SecurityAnalystIsLowerCase();
    NetworkEngineerHasNoRepeats();
    NetworkEngineerIsLowerCase();
    BlockchainDeveloperHasNoRepeats();
    BlockchainDeveloperIsLowerCase();
    GameDeveloperHasNoRepeats();
    GameDeveloperIsLowerCase();
    DatabaseAdministratorHasNoRepeats();
    DatabaseAdministratorIsLowerCase();
  }

  lemma DataScientistHasNoRepeats()
    ensures NoDup(DataScientist)
  {
  }

  lemma DataScientistIsLowerCase()
    ensures forall i :: 0 <= i < |DataScientist| ==> NoUpper(DataScientist[i])
  {
  }

  lemma MachineLearningEngineerHasNoRepeats()
    ensures NoDup(MachineLearningEngineer)
  {
  }

  lemma MachineLearningEngineerIsLowerCase()
    ensures forall i :: 0 <= i < |MachineLearningEngineer| ==> NoUpper(MachineLearningEngineer[i])
  {
  }

  lemma AiEngineerHasNoRepeats()
    ensures NoDup(AiEngineer)
  {
  }

  lemma AiEngineerIsLowerCase()
    ensures forall i :: 0 <= i < |AiEngineer| ==> NoUpper(AiEngineer[i])
  {
  }

  lemma WebDeveloperHasNoRepeats()
    ensures NoDup(WebDeveloper)
  {
  }

  lemma WebDeveloperIsLowerCase()
    ensures forall i :: 0 <= i < |WebDeveloper| ==> NoUpper(WebDeveloper[i])
  {
  }

  lemma FrontendDeveloperHasNoRepeats()
    ensures NoDup(FrontendDeveloper)
  {
  }

  lemma FrontendDeveloperIsLowerCase()
    ensures forall i :: 0 <= i < |FrontendDeveloper| ==> NoUpper(FrontendDeveloper[i])
  {
  }

  lemma BackendDeveloperHasNoRepeats()
    ensures NoDup(BackendDeveloper)
  {
  }

  lemma BackendDeveloperIsLowerCase()
    ensures forall i :: 0 <= i < |BackendDeveloper| ==> NoUpper(BackendDeveloper[i])
  {
  }

  lemma FullStackDeveloperHasNoRepeats()
    ensures NoDup(FullStackDeveloper)
  {
  }

  lemma FullStackDeveloperIsLowerCase()
    ensures forall i :: 0 <= i < |FullStackDeveloper| ==> NoUpper(FullStackDeveloper[i])
  {
  }

  lemma SoftwareEngineerHasNoRepeats()
    ensures NoDup(SoftwareEngineer)
  {
  }

  lemma SoftwareEngineerIsLowerCase()
    ensures forall i :: 0 <= i < |SoftwareEngineer| ==> NoUpper(SoftwareEngineer[i])
  {
  }

  lemma DataAnalystHasNoRepeats()
    ensures NoDup(DataAnalyst)
  {
  }

  lemma DataAnalystIsLowerCase()
    ensures forall i :: 0 <= i < |DataAnalyst| ==> NoUpper(DataAnalyst[i])
  {
  }

  lemma DevopsEngineerHasNoRepeats()
    ensures NoDup(DevopsEngineer)
  {
  }

  lemma DevopsEngineerIsLowerCase()
    ensures forall i :: 0 <= i < |DevopsEngineer| ==> NoUpper(DevopsEngineer[i])
  {
  }

  lemma CloudEngineerHasNoRepeats()
    ensures NoDup(CloudEngineer)
  {
  }

  lemma CloudEngineerIsLowerCase()
    ensures forall i :: 0 <= i < |CloudEngineer| ==> NoUpper(CloudEngineer[i])
  {
  }

  lemma MobileAppDeveloperHasNoRepeats()
    ensures NoDup(MobileAppDeveloper)
  {
  }

  lemma MobileAppDeveloperIsLowerCase()
    ensures forall i :: 0 <= i < |MobileAppDeveloper| ==> NoUpper(MobileAppDeveloper[i])
  {
  }

  lemma AndroidDeveloperHasNoRepeats()
    ensures NoDup(AndroidDeveloper)
  {
  }

  lemma AndroidDeveloperIsLowerCase()
    ensures forall i :: 0 <= i < |AndroidDeveloper| ==> NoUpper(AndroidDeveloper[i])
  {
  }

  lemma IosDeveloperHasNoRepeats()
    ensures NoDup(IosDeveloper)
  {
  }

  lemma IosDeveloperIsLowerCase()
    ensures forall i :: 0 <= i < |IosDeveloper| ==> NoUpper(IosDeveloper[i])
  {
  }

  lemma UiUxDesignerHasNoRepeats()
    ensures NoDup(UiUxDesigner)
  {
  }

  lemma UiUxDesignerIsLowerCase()
    ensures forall i :: 0 <= i < |UiUxDesigner| ==> NoUpper(UiUxDesigner[i])
  {
  }

  lemma QaEngineerHasNoRepeats()
    ensures NoDup(QaEngineer)
  {
  }

  lemma QaEngineerIsLowerCase()
    ensures forall i :: 0 <= i < |QaEngineer| ==> NoUpper(QaEngineer[i])
  {
  }

  lemma SecurityAnalystHasNoRepeats()
    ensures NoDup(SecurityAnalyst)
  {
  }

  lemma SecurityAnalystIsLowerCase()
    ensures forall i :: 0 <= i < |SecurityAnalyst| ==> NoUpper(SecurityAnalyst[i])
  {
  }

  lemma NetworkEngineerHasNoRepeats()
    ensures NoDup(NetworkEngineer)
  {
  }

  lemma NetworkEngineerIsLowerCase()
    ensures forall i :: 0 <= i < |NetworkEngineer| ==> NoUpper(NetworkEngineer[i])
  {
  }

  lemma BlockchainDeveloperHasNoRepeats()
    ensures NoDup(BlockchainDeveloper)
  {
  }

  lemma BlockchainDeveloperIsLowerCase()
    ensures forall i :: 0 <= i < |BlockchainDeveloper| ==> NoUpper(BlockchainDeveloper[i])
  {
  }

  lemma GameDeveloperHasNoRepeats()
    ensures NoDup(GameDeveloper)
  {
  }

  lemma GameDeveloperIsLowerCase()
    ensures forall i :: 0 <= i < |GameDeveloper| ==> NoUpper(GameDeveloper[i])
  {
  }

  lemma DatabaseAdministratorHasNoRepeats()
    ensures NoDup(DatabaseAdministrator)
  {
  }

  lemma DatabaseAdministratorIsLowerCase()
    ensures forall i :: 0 <= i < |DatabaseAdministrator| ==> NoUpper(DatabaseAdministrator[i])
  {
  }

  /** `skillSuggestions`: advice for some skills. */
  const SkillSuggestions: map<string, string> := map[
    "python" := "Enhance Python by building small projects or solving problems on LeetCode.",
    "machine learning" := "Take an ML course on Coursera or Udemy.",
    "tensorflow" := "Practice TensorFlow by building a neural network model.",
    "pytorch" := "Use PyTorch for building deep learning models\U{2014}check tutorials from official docs.",
    "docker" := "Learn Docker by containerizing a sample app.",
    "aws" := "Start with AWS Free Tier and deploy a basic application.",
    "html" := "Build a simple portfolio website to showcase your HTML/CSS skills.",
    "css" := "Experiment with Flexbox, Grid, and animations in CSS.",
    "javascript" := "Make interactive web pages with JS, like a calculator or to-do list.",
    "react" := "Build a React-based UI project like a blog or resume site.",
    "nodejs" := "Create a simple backend API with Node.js and Express.",
    "sql" := "Practice SQL queries using online playgrounds like Mode Analytics or W3Schools.",
    "excel" := "Master formulas and pivot tables in Excel.",
    "flutter" := "Create a simple mobile app with Flutter and Dart.",
    "java" := "Build an OOP-based app like a library system using Java.",
    "c++" := "Improve C++ by solving problems on HackerRank or Codeforces.",
    "oop" := "Understand object-oriented concepts with small examples.",
    "linux" := "Use Linux CLI and try setting up a basic server.",
    "figma" := "Design a simple mobile or web app UI using Figma.",
    "selenium" := "Automate browser actions using Selenium WebDriver.",
    "blockchain" := "Explore smart contract development with Solidity and Remix IDE.",
    "unity" := "Build a 2D game using Unity's basic features."
  ]
}

=== FILE: js_number.dfy ===
/** `parseInt(text, 10)`, which turns the scoring reply into a number. */
module JsNumber {
  import opened Wrappers
  import opened JsText

  predicate IsDigit(c: char) {
    '0' <= c <= '9'
  }

  predicate AllDigits(s: string) {
    forall i :: 0 <= i < |s| ==> IsDigit(s[i])
  }

  function DigitValue(c: char): nat
    requires IsDigit(c)
  {
    c as int - '0' as int
  }

  /** Length of the longest all-digit prefix. */
  function DigitRun(s: string): (n: nat)
    ensures n <= |s| && AllDigits(s[..n])
    ensures n < |s| ==> !IsDigit(s[n])
  {
    if |s| > 0 && IsDigit(s[0]) then 1 + DigitRun(s[1..]) else 0
  }

  /** The number a string of decimal digits denotes. */
  function DigitsValue(d: string): nat
    requires AllDigits(d)
  {
    if |d| == 0 then 0 else 10 * DigitsValue(d[..|d| - 1]) + DigitValue(d[|d| - 1])
  }

  /** `parseInt(s, 10)`: skip leading white space, take one optional sign,
      then the longest run of decimal digits; no digits gives NaN (`None`).
      Whatever follows the digits is ignored. */
  function ParseInt(s: string): Option<int> {
    ParseSigned(TrimStart(s))
  }

  /** The sign step of `parseInt`, after the white space is skipped. */
  function ParseSigned(t: string): Option<int> {
    if |t| > 0 && t[0] == '-' then
      match ParseDigits(t[1..])
      case None => None
      case Some(v) => Some(-v)
    else if |t| > 0 && t[0] == '+' then ParseDigits(t[1..])
    else ParseDigits(t)
  }

  /** The digit step of `parseInt`: the value of the leading digits, if any. */
  function ParseDigits(u: string): Option<int> {
    var n := DigitRun(u);
    if n == 0 then None else Some(DigitsValue(u[..n]))
  }

  function DigitChar(d: nat): (c: char)
    requires d < 10
    ensures IsDigit(c) && DigitValue(c) == d
  {
    ('0' as int + d) as char
  }

  /** The decimal rendering of a natural number, as `String(n)` gives it. */
  function Decimal(n: nat): (r: string)
    ensures |r| >= 1 && AllDigits(r)
  {
    if n < 10 then [DigitChar(n)] else Decimal(n / 10) + [DigitChar(n % 10)]
  }

  /** Reading back a rendered number gives the number. */
  lemma {:induction false} DecimalValue(n: nat)
    ensures DigitsValue(Decimal(n)) == n
  {
    if n >= 10 {
      DecimalValue(n / 10);
      var d := Decimal(n);
      assert d[..|d| - 1] == Decimal(n / 10);
    }
  }

  /** The digit run of digits followed by a non-digit is exactly those digits. */
  lemma {:induction false} DigitRunOfDigits(d: string, rest: string)
    requires AllDigits(d)
    requires |rest| == 0 || !IsDigit(rest[0])
    ensures DigitRun(d + rest) == |d|
  {
    if |d| > 0 {
      assert (d + rest)[1..] == d[1..] + rest;
      DigitRunOfDigits(d[1..], rest);
    } else {
      assert d + rest == rest;
    }
  }

  /** Round trip: `parseInt` reads back any rendered number, with or
      without a sign, whatever non-digit text follows it. */
  lemma ParseIntDecimal(n: nat, rest: string)
    requires |rest| == 0 || !IsDigit(rest[0])
    ensures ParseInt(Decimal(n) + rest) == Some(n)
    ensures ParseInt("-" + Decimal(n) + rest) == Some(-(n as int))
    ensures ParseInt("+" + Decimal(n) + rest) == Some(n)
  {
    ParseSignedDecimal(n, rest);
    ParseIntUnpadded(Decimal(n) + rest);
    ParseIntUnpadded("-" + Decimal(n) + rest);
    ParseIntUnpadded("+" + Decimal(n) + rest);
  }

  /** Without leading white space `parseInt` starts at the sign step. */
  lemma ParseIntUnpadded(t: string)
    requires |t| > 0 && (IsDigit(t[0]) || t[0] == '-' || t[0] == '+')
    ensures ParseInt(t) == ParseSigned(t)
  {
    assert !IsSpace(t[0]);
  }

  /** `parseInt` ignores leading white space. */
  lemma ParseIntSkipsPad(pad: string, t: string)
    requires forall i :: 0 <= i < |pad| ==> IsSpace(pad[i])
    requires |t| > 0 && !IsSpace(t[0])
    ensures ParseInt(pad + t) == ParseSigned(t)
  {
    TrimStartSkipsPad(pad, t);
  }

  /** The sign step applied to a rendered number. */
  lemma ParseSignedDecimal(n: nat, rest: string)
    requires |rest| == 0 || !IsDigit(rest[0])
    ensures ParseSigned(Decimal(n) + rest) == Some(n)
    ensures ParseSigned("-" + Decimal(n) + rest) == Some(-(n as int))
    ensures ParseSigned("+" + Decimal(n) + rest) == Some(n)
  {
    DecimalValue(n);
    ParseDigitsOfDigits(Decimal(n), rest);
    SignSteps(Decimal(n), rest, n);
  }

  /** Before a digit the sign step reads the digits, negated after `-`. */
  lemma SignSteps(d: string, rest: string, v: int)
    requires |d| > 0 && IsDigit(d[0])
    requires ParseDigits(d + rest) == Some(v)
    ensures ParseSigned(d + rest) == Some(v)
    ensures ParseSigned("-" + d + rest) == Some(-v)
    ensures ParseSigned("+" + d + rest) == Some(v)
  {
    assert (d + rest)[0] == d[0];
    assert ("-" + d + rest)[0] == '-' && ("-" + d + rest)[1..] == d + rest;
    assert ("+" + d + rest)[0] == '+' && ("+" + d + rest)[1..] == d + rest;
  }

  /** The digit step reads a run of digits up to the first non-digit. */
  lemma ParseDigitsOfDigits(d: string, rest: string)
    requires |d| > 0 && AllDigits(d)
    requires |rest| == 0 || !IsDigit(rest[0])
    ensures ParseDigits(d + rest) == Some(DigitsValue(d))
  {
    DigitRunOfDigits(d, rest);
    assert (d + rest)[..|d|] == d;
  }

  /** The sign `parseInt` accepts in front of the digits. */
  datatype Sign = NoSign | Plus | Minus

  function SignText(sign: Sign): string {
    match sign
    case NoSign => ""
    case Plus => "+"
    case Minus => "-"
  }

  /** `parseInt(text.trim(), 10)` of a numeral: optional white space, an
      optional sign, digits (leading zeros allowed), then anything that does
      not start with a digit. The result is the digits' value `v`, negated
      after `-`. */
  lemma ParseIntOfNumeral(pad: string, sign: Sign, digits: string, rest: string) returns (v: int)
    requires forall i :: 0 <= i < |pad| ==> IsSpace(pad[i])
    requires |digits| > 0 && AllDigits(digits)
    requires |rest| == 0 || !IsDigit(rest[0])
    ensures v == DigitsValue(digits)
    ensures ParseInt(Trim(pad + SignText(sign) + digits + rest)) == Some(if sign == Minus then -v else v)
  {
    var text := SignText(sign);
    var kept := TrimNumeral(pad, text, digits, rest);
    v := DigitsValue(digits);
    ParseDigitsOfDigits(digits, kept);
    assert |text| == (if sign == NoSign then 0 else 1);
    assert |text| == 1 ==> text[0] == (if sign == Minus then '-' else '+');
    SignedDigits(text, digits, kept, v);
  }

  /** The sign step after at most one sign character. */
  lemma SignedDigits(text: string, d: string, rest: string, v: int)
    requires |text| <= 1 && (|text| == 1 ==> text[0] == '-' || text[0] == '+')
    requires |d| > 0 && IsDigit(d[0]) && ParseDigits(d + rest) == Some(v)
    ensures ParseSigned(text + d + rest) == Some(if |text| == 1 && text[0] == '-' then -v else v)
  {
    var t := text + d + rest;
    if |text| == 0 {
      assert t == d + rest;
      assert t[0] == d[0];
    } else {
      assert t[0] == text[0];
      assert t[1..] == d + rest;
    }
  }

  /** Trimming a numeral removes the white space around it and leaves the
      sign step to read it up to `kept`, the part of `rest` before its
      trailing white space. */
  lemma TrimNumeral(pad: string, text: string, digits: string, rest: string) returns (kept: string)
    requires forall i :: 0 <= i < |pad| ==> IsSpace(pad[i])
    requires text == "" || text == "+" || text == "-"
    requires |digits| > 0 && AllDigits(digits)
    requires |rest| == 0 || !IsDigit(rest[0])
    ensures |kept| == 0 || !IsDigit(kept[0])
    ensures ParseInt(Trim(pad + text + digits + rest)) == ParseSigned(text + digits + kept)
  {
    NumeralStart(pad, text, digits, rest);
    kept := NumeralEnd(text, digits, rest);
    var t := text + digits + kept;
    assert Trim(pad + text + digits + rest) == t;
    assert TrimStart(t) == t by {
      NumeralStart("", text, digits, kept);
      Concat4("", text, digits, kept);
    }
  }

  /** Leading white space before a numeral is skipped. */
  lemma NumeralStart(pad: string, sign: string, digits: string, rest: string)
    requires forall i :: 0 <= i < |pad| ==> IsSpace(pad[i])
    requires sign == "" || sign == "+" || sign == "-"
    requires |digits| > 0 && AllDigits(digits)
    ensures TrimStart(pad + sign + digits + rest) == sign + digits + rest
  {
    var core := sign + digits + rest;
    Concat4(pad, sign, digits, rest);
    assert core[0] == if sign == "" then digits[0] else sign[0];
    TrimStartSkipsPad(pad, core);
  }

  /** Trailing white space after a numeral is dropped from the text that
      follows its digits only. */
  lemma NumeralEnd(sign: string, digits: string, rest: string) returns (kept: string)
    requires |digits| > 0 && AllDigits(digits)
    ensures TrimEnd(sign + digits + rest) == sign + digits + kept
    ensures kept == rest[..|kept|]
  {
    var core := sign + digits + rest;
    var k := |sign| + |digits|;
    assert core[k - 1] == digits[|digits| - 1];
    var t := TrimEnd(core);
    assert |t| >= k;
    kept := rest[..|t| - k];
    assert t == core[..|t|];
    assert core[..|t|] == sign + digits + kept;
  }

  lemma Concat4(a: string, b: string, c: string, d: string)
    ensures a + b + c + d == a + (b + c + d)
  {
  }

  /** Text with no digit after the optional sign is NaN. */
  lemma NoDigitsIsNaN(s: string)
    requires |s| > 0 && !IsSpace(s[0]) && !IsDigit(s[0]) && s[0] != '-' && s[0] != '+'
    ensures ParseInt(s) == None
  {
  }
}

=== FILE: js_text.dfy ===
/** The JavaScript string operations the interview core relies on:
    `toLowerCase`, `trim`, `split('\n')` and `split(/\s+/)`. */
module JsText {

  /** The characters that `\s`, `String.prototype.trim` and `parseInt`
      treat as white space: ECMAScript's WhiteSpace and LineTerminator
      productions (tab, vertical tab, form feed, the space separators,
      the byte-order mark, and the four line terminators). */
  predicate IsSpace(c: char) {
    c in SpaceChars
  }

  const SpaceChars: set<char> := {
    '\t', '\n', '\U{000B}', '\U{000C}', '\r', ' ', '\U{00A0}', '\U{1680}',
    '\U{2000}', '\U{2001}', '\U{2002}', '\U{2003}', '\U{2004}', '\U{2005}',
    '\U{2006}', '\U{2007}', '\U{2008}', '\U{2009}', '\U{200A}',
    '\U{2028}', '\U{2029}', '\U{202F}', '\U{205F}', '\U{3000}', '\U{FEFF}'
  }

  /** `toLowerCase` on one character, for the ASCII letters. */
  function LowerChar(c: char): char {
    if 'A' <= c <= 'Z' then (c as int + 32) as char else c
  }

  /** `s.toLowerCase()` (ASCII letters only). */
  function Lower(s: string): (r: string)
    ensures |r| == |s|
    ensures forall i :: 0 <= i < |s| ==> r[i] == LowerChar(s[i])
  {
    if |s| == 0 then [] else [LowerChar(s[0])] + Lower(s[1..])
  }

  /** Lower-casing twice is lower-casing once. */
  lemma LowerIdempotent(s: string)
    ensures Lower(Lower(s)) == Lower(s)
  {
    assert forall i :: 0 <= i < |s| ==> LowerChar(LowerChar(s[i])) == LowerChar(s[i]);
  }

  /** No upper-case ASCII letter occurs in `s`. */
  predicate NoUpper(s: string) {
    forall i :: 0 <= i < |s| ==> !('A' <= s[i] <= 'Z')
  }

  /** A string without upper-case ASCII letters is its own lower case. */
  lemma LowerOfLowerCase(s: string)
    requires NoUpper(s)
    ensures Lower(s) == s
  {
    assert forall i :: 0 <= i < |s| ==> Lower(s)[i] == s[i];
  }

  /** Drops the leading white space: the left half of `trim`. */
  function TrimStart(s: string): (r: string)
    ensures |r| <= |s| && r == s[|s| - |r|..]
    ensures |r| > 0 ==> !IsSpace(r[0])
    ensures forall i :: 0 <= i < |s| - |r| ==> IsSpace(s[i])
  {
    if |s| > 0 && IsSpace(s[0]) then TrimStart(s[1..]) else s
  }

  /** Drops the trailing white space: the right half of `trim`. */
  function TrimEnd(s: string): (r: string)
    ensures |r| <= |s| && r == s[..|r|]
    ensures |r| > 0 ==> !IsSpace(r[|r| - 1])
    ensures forall i :: |r| <= i < |s| ==> IsSpace(s[i])
  {
    if |s| > 0 && IsSpace(s[|s| - 1]) then TrimEnd(s[..|s| - 1]) else s
  }

  /** `s.trim()`. */
  function Trim(s: string): string {
    TrimEnd(TrimStart(s))
  }

  /** A string is its own trim exactly when it neither starts nor ends with
      white space. */
  predicate IsTrimmed(s: string) {
    |s| == 0 || (!IsSpace(s[0]) && !IsSpace(s[|s| - 1]))
  }

  /** `trim` removes all edge white space and is empty exactly for
      all-white-space input. */
  lemma {:induction false} TrimSpec(s: string)
    ensures IsTrimmed(Trim(s))
    ensures Trim(s) == "" <==> forall i :: 0 <= i < |s| ==> IsSpace(s[i])
  {
    var t := TrimStart(s);
    var r := TrimEnd(t);
    if |r| > 0 {
      assert r[0] == t[0];
    }
    if r == "" {
      assert |t| == 0;
    }
  }

  /** `trim` is idempotent. */
  lemma {:induction false} TrimIdempotent(s: string)
    ensures Trim(Trim(s)) == Trim(s)
  {
    TrimSpec(s);
    TrimOfTrimmed(Trim(s));
  }

  /** A string with no edge white space is its own trim. */
  lemma {:induction false} TrimOfTrimmed(s: string)
    requires IsTrimmed(s)
    ensures Trim(s) == s
  {
  }

  /** `s.split(sep)` for a one-character separator: the pieces between
      separators, with empty pieces where separators are adjacent or at
      the ends; the empty string gives one empty piece. */
  function Split(s: string, sep: char): (r: seq<string>)
    ensures |r| >= 1
    ensures forall i :: 0 <= i < |r| ==> sep !in r[i]
  {
    if |s| == 0 then [""]
    else
      var rest := Split(s[1..], sep);
      if s[0] == sep then [""] + rest
      else [[s[0]] + rest[0]] + rest[1..]
  }

  /** `parts.join(sep)`. */
  function Join(parts: seq<string>, sep: char): string
    requires |parts| >= 1
  {
    if |parts| == 1 then parts[0] else parts[0] + [sep] + Join(parts[1..], sep)
  }

  /** Joining the pieces of a split with the same separator gives the
      original string back. */
  lemma {:induction false} JoinSplit(s: string, sep: char)
    ensures Join(Split(s, sep), sep) == s
  {
    if |s| > 0 {
      var rest := Split(s[1..], sep);
      JoinSplit(s[1..], sep);
      if s[0] == sep {
        assert ([""] + rest)[1..] == rest;
      } else {
        var r := [[s[0]] + rest[0]] + rest[1..];
        if |rest| > 1 {
          assert r[1..] == rest[1..];
          assert Join(rest, sep) == rest[0] + [sep] + Join(rest[1..], sep);
        }
        assert [s[0]] + s[1..] == s;
      }
    }
  }

  /** `s.split(/\s+/)`: the pieces between maximal runs of white space.
      Leading or trailing white space gives an empty first or last piece,
      and the empty string gives one empty piece. */
  function SplitWords(s: string): (r: seq<string>)
    ensures |r| >= 1
    ensures forall i, j :: 0 <= i < |r| && 0 <= j < |r[i]| ==> !IsSpace(r[i][j])
    decreases |s|
  {
    if |s| == 0 then [""]
    else if IsSpace(s[0]) then [""] + SplitWords(TrimStart(s))
    else
      var rest := SplitWords(s[1..]);
      [[s[0]] + rest[0]] + rest[1..]
  }

  /** A string without white space is a single word. */
  lemma {:induction false} SplitWordsSingle(s: string)
    requires forall i :: 0 <= i < |s| ==> !IsSpace(s[i])
    ensures SplitWords(s) == [s]
  {
    if |s| > 0 {
      SplitWordsSingle(s[1..]);
      assert [s[0]] + s[1..] == s;
    }
  }

  /** Leading white space is skipped up to the first other character. */
  lemma {:induction false} TrimStartSkipsPad(pad: string, s: string)
    requires forall i :: 0 <= i < |pad| ==> IsSpace(pad[i])
    requires |s| == 0 || !IsSpace(s[0])
    ensures TrimStart(pad + s) == s
  {
    if |pad| > 0 {
      assert (pad + s)[1..] == pad[1..] + s;
      TrimStartSkipsPad(pad[1..], s);
    } else {
      assert pad + s == s;
    }
  }

  /** A whole run of white space is one separator: a word (possibly empty)
      followed by a non-empty run of white space and text that does not
      start with white space splits into that word and the pieces of the
      text. With an empty word this is the leading empty piece; with empty
      text, the trailing one. */
  lemma {:induction false} SplitWordsRun(w: string, sp: string, rest: string)
    requires forall i :: 0 <= i < |w| ==> !IsSpace(w[i])
    requires |sp| > 0 && forall i :: 0 <= i < |sp| ==> IsSpace(sp[i])
    requires |rest| == 0 || !IsSpace(rest[0])
    ensures SplitWords(w + sp + rest) == [w] + SplitWords(rest)
  {
    if |w| == 0 {
      assert w + sp + rest == sp + rest;
      assert (sp + rest)[0] == sp[0];
      TrimStartSkipsPad(sp, rest);
    } else {
      SplitWordsRun(w[1..], sp, rest);
      DropFirstOfSeparated(w, sp, rest);
    }
  }

  /** Dropping the first character of `w + sp + rest` drops it from `w`. */
  lemma DropFirstOfSeparated(w: string, sp: string, rest: string)
    requires |w| > 0
    ensures (w + sp + rest)[1..] == w[1..] + sp + rest
    ensures (w + sp + rest)[0] == w[0]
    ensures [w[0]] + w[1..] == w
  {
  }

  /** Lower-casing works character by character, so it distributes over
      concatenation. */
  lemma LowerAppend(a: string, b: string)
    ensures Lower(a + b) == Lower(a) + Lower(b)
  {
    var ab, la, lb := a + b, Lower(a), Lower(b);
    var l, r := Lower(ab), la + lb;
    assert |l| == |r|;
    forall i | 0 <= i < |l|
      ensures l[i] == r[i]
    {
      if i < |a| {
        assert ab[i] == a[i];
        assert r[i] == la[i];
      } else {
        assert ab[i] == b[i - |a|];
        assert r[i] == lb[i - |a|];
      }
    }
  }

  /** The names an object literal inherits from `Object.prototype`: looking
      any of them up with `obj[name]` yields a function (or, for
      `__proto__`, the prototype object) instead of `undefined`. */
  const ObjectPrototypeNames: set<string> := {
    "constructor", "__proto__", "hasOwnProperty", "isPrototypeOf",
    "propertyIsEnumerable", "toString", "toLocaleString", "valueOf",
    "__defineGetter__", "__defineSetter__", "__lookupGetter__", "__lookupSetter__"
  }
}

=== FILE: question_generator.dfy ===
/** The question source: word-overlap similarity, line filtering, the
    five-question batches, the bounded retry loop for follow-up questions
    and the branch-to-core-topics table. The text-generation service is an
    oracle: each call's reply is an input. */
module QuestionGenerator {
  import opened Wrappers
  import opened Seqs
  import opened JsText

  /** One reply of the generation service: its text, or a thrown error
      (network, quota, missing API key, unreadable response). */
  datatype GenReply = Generated(text: string) | GenerationError

  datatype QuestionError =
    | ServiceFailure       // the generation call threw
    | TopicLookupFailure   // `getCoreTopics(branch).join` threw
    | NoUniqueQuestion     // five candidates in a row were rejected

  /** Questions kept from one batch reply. */
  const BatchSize := 5
  /** Generation calls one follow-up question may make. */
  const MaxAttempts := 5

  function Max(a: int, b: int): int {
    if a >= b then a else b
  }

  function Min(a: int, b: int): int {
    if a <= b then a else b
  }

  // ---------------------------------------------------------------------
  // Similarity

  /** `s.toLowerCase().split(/\s+/)`. */
  function Words(s: string): (r: seq<string>)
    ensures |r| >= 1
  {
    SplitWords(Lower(s))
  }

  /** `word => bWords.includes(word)`. */
  function OccursIn(ys: seq<string>): string -> bool {
    w => w in ys
  }

  /** `aWords.filter(word => bWords.includes(word))`: the words of `a`,
      repeats included, that also occur in `b`. */
  function CommonWords(a: string, b: string): (r: seq<string>)
    ensures |r| <= |Words(a)|
    ensures forall w :: w in r <==> w in Words(a) && w in Words(b)
  {
    Filter(Words(a), OccursIn(Words(b)))
  }

  /** `similarity(a, b)`: the share of `a`'s words that occur in `b`. */
  function Similarity(a: string, b: string): (r: real)
    ensures 0.0 <= r <= 1.0
  {
    var c := |CommonWords(a, b)|;
    var n := Max(|Words(a)|, 1);
    Ratio(c, n);
    c as real / n as real
  }

  /** The facts about `c / n` the similarity measure needs. */
  lemma Ratio(c: int, n: int)
    requires n > 0
    ensures 0 <= c <= n ==> 0.0 <= c as real / n as real <= 1.0
    ensures c == n ==> c as real / n as real == 1.0
    ensures c as real / n as real > 0.7 <==> 10 * c > 7 * n
  {
    RatioAbove(c, n);
    if 0 <= c <= n {
      RatioBounds(c, n);
    }
  }

  lemma RatioAbove(c: int, n: int)
    requires n > 0
    ensures c as real / n as real > 0.7 <==> 10 * c > 7 * n
  {
    var q := c as real / n as real;
    assert q * n as real == c as real;
    if q > 0.7 {
      MulStrict(q, 0.7, n as real);
    } else if 10 * c > 7 * n {
      MulStrict(0.7, q, n as real);
      assert false;
    }
  }

  lemma RatioBounds(c: int, n: int)
    requires 0 <= c <= n && n > 0
    ensures 0.0 <= c as real / n as real <= 1.0
  {
    var q := c as real / n as real;
    assert q * n as real == c as real;
    if q > 1.0 {
      MulStrict(q, 1.0, n as real);
    }
    if q < 0.0 {
      MulStrict(0.0, q, n as real);
    }
  }

  lemma MulStrict(x: real, y: real, n: real)
    requires n > 0.0 && x > y
    ensures x * n > y * n
  {
  }

  /** `similarity(asked, q) > 0.7`, decided in integers. */
  predicate NearDuplicate(asked: string, q: string) {
    10 * |CommonWords(asked, q)| > 7 * Max(|Words(asked)|, 1)
  }

  /** The integer test is the real-valued threshold test. */
  lemma NearDuplicateIsAboveThreshold(a: string, b: string)
    ensures NearDuplicate(a, b) <==> Similarity(a, b) > 0.7
  {
    Ratio(|CommonWords(a, b)|, Max(|Words(a)|, 1));
  }

  /** Every word of a string occurs in that string, so a question is
      similar to itself with ratio 1 and is a near duplicate of itself. */
  lemma SelfSimilarity(a: string)
    ensures Similarity(a, a) == 1.0
    ensures NearDuplicate(a, a)
  {
    var aw := Words(a);
    Ratio(|aw|, Max(|aw|, 1));
  }

  /** Comparison ignores letter case: a repeat that differs only in case
      is a near duplicate. */
  lemma CaseVariantIsNearDuplicate(a: string, b: string)
    requires Lower(a) == Lower(b)
    ensures Similarity(a, b) == 1.0
    ensures NearDuplicate(a, b)
  {
    SelfSimilarity(a);
  }

  /** A single lower-case word: non-empty and free of white space. */
  predicate IsWord(w: string) {
    |w| > 0 && (forall i :: 0 <= i < |w| ==> !IsSpace(w[i])) && Lower(w) == w
  }

  /** A lower-case word is its own word list. */
  lemma WordsOfWord(w: string)
    requires IsWord(w)
    ensures Words(w) == [w]
  {
    SplitWordsSingle(w);
  }

  /** Prefixing a lower-case word and one space to lower-case text adds that
      word in front of its word list. */
  lemma WordsCons(w: string, rest: string)
    requires IsWord(w)
    requires |rest| > 0 && !IsSpace(rest[0]) && Lower(rest) == rest
    ensures Lower(w + " " + rest) == w + " " + rest
    ensures Words(w + " " + rest) == [w] + Words(rest)
  {
    assert Lower(" ") == " ";
    LowerAppend(w, " ");
    LowerAppend(w + " ", rest);
    SplitWordsRun(w, " ", rest);
  }

  /** The denominator is the first argument's word count, so the measure is
      not symmetric: a one-word question is fully contained in a two-word
      one, but only half of the two-word one occurs in the one-word one. */
  lemma SimilarityIsAsymmetric(w: string, v: string)
    requires IsWord(w) && IsWord(v) && w != v
    ensures Similarity(w, w + " " + v) == 1.0
    ensures Similarity(w + " " + v, w) == 0.5
  {
    WordsOfWord(w);
    WordsOfWord(v);
    WordsCons(w, v);
    var x := [w];
    var xy := [w, v];
    assert Filter([v], OccursIn(x)) == [];
    assert Filter(xy, OccursIn(x)) == [w];
    assert Filter(x, OccursIn(xy)) == x;
    Ratio(1, 1);
  }

  /** Repeated words each count: a question made of three copies of one word
      and one more word is a near duplicate of the one-word question, since
      at least three of its four words occur there. */
  lemma RepeatedWordsCount(w: string, v: string)
    requires IsWord(w) && IsWord(v)
    ensures NearDuplicate(w + " " + w + " " + w + " " + v, w)
  {
    WordsOfWord(w);
    WordsOfRepeats(w, v);
    KeepRepeats(w, v, [w]);
  }

  /** The word list of three copies of `w` followed by `v`. */
  lemma WordsOfRepeats(w: string, v: string)
    requires IsWord(w) && IsWord(v)
    ensures Words(w + " " + w + " " + w + " " + v) == [w, w, w, v]
  {
    WordsOfWord(v);
    var s1 := w + " " + v;
    WordsCons(w, v);
    var s2 := w + " " + s1;
    WordsCons(w, s1);
    var s3 := w + " " + s2;
    WordsCons(w, s2);
    assert s3 == w + " " + w + " " + w + " " + v;
  }

  /** Each of the three copies of `w` is kept. */
  lemma KeepRepeats(w: string, v: string, x: seq<string>)
    requires x == [w]
    ensures |Filter([w, w, w, v], OccursIn(x))| >= 3
  {
    var ws := [w, w, w, v];
    var p := OccursIn(x);
    var k := Filter([v], p);
    assert p(w);
    assert ws[1..][1..] == [w, v] && [w, v][1..] == [v];
    assert Filter([w, v], p) == [w] + k;
    assert Filter(ws[1..], p) == [w, w] + k;
    assert Filter(ws, p) == [w, w, w] + k;
  }

  // ---------------------------------------------------------------------
  // Filtering generated text

  /** A candidate survives: it is not blank and no asked question is
      similar to it above the threshold. */
  predicate Accepted(q: string, asked: seq<string>) {
    q != "" && !(exists aq :: aq in asked && NearDuplicate(aq, q))
  }

  /** `rawText.split('\n').map(q => q.trim())`. */
  function TrimmedLines(raw: string): (r: seq<string>)
    ensures |r| == |Split(raw, '\n')|
    ensures forall i :: 0 <= i < |r| ==> r[i] == Trim(Split(raw, '\n')[i]) && IsTrimmed(r[i])
  {
    var lines := Split(raw, '\n');
    TrimAll(lines);
    seq(|lines|, i requires 0 <= i < |lines| => Trim(lines[i]))
  }

  lemma TrimAll(lines: seq<string>)
    ensures forall i :: 0 <= i < |lines| ==> IsTrimmed(Trim(lines[i]))
  {
    forall i | 0 <= i < |lines| {
      TrimSpec(lines[i]);
    }
  }

  /** `filterQuestions(rawText, askedQuestions)`: the trimmed, non-blank
      lines that no asked question is a near duplicate of, in input order. */
  function FilterQuestions(raw: string, asked: seq<string>): (r: seq<string>)
    ensures forall q :: q in r ==>
      q != "" && IsTrimmed(q) && q in TrimmedLines(raw)
      && forall aq :: aq in asked ==> !NearDuplicate(aq, q)
    ensures forall q :: q in TrimmedLines(raw) && Accepted(q, asked) ==> q in r
    ensures IsSubsequence(r, TrimmedLines(raw))
  {
    Filter(TrimmedLines(raw), q => Accepted(q, asked))
  }

  /** The non-blank trimmed lines, in order. */
  function NonBlankLines(raw: string): seq<string> {
    Filter(TrimmedLines(raw), q => q != "")
  }

  /** With nothing asked, filtering only drops blank lines. */
  lemma FilterWithNothingAsked(raw: string)
    ensures FilterQuestions(raw, []) == NonBlankLines(raw)
  {
    FilterCongruent(TrimmedLines(raw), q => Accepted(q, []), q => q != "");
  }

  /** No question kept by the filter is a case variant of an asked one. */
  lemma FilterDropsRepeats(raw: string, asked: seq<string>, q: string, aq: string)
    requires q in FilterQuestions(raw, asked) && aq in asked
    ensures Lower(q) != Lower(aq)
  {
    if Lower(q) == Lower(aq) {
      CaseVariantIsNearDuplicate(aq, q);
    }
  }

  // ---------------------------------------------------------------------
  // Batches

  /** One batch: the filtered reply cut to its first five questions
      (`filterQuestions(text, askedQuestions).slice(0, 5)`). */
  function Batch(reply: GenReply, asked: seq<string>): (r: Result<seq<string>, QuestionError>)
    ensures r.Ok? <==> reply.Generated?
    ensures r.Err? ==> r.error == ServiceFailure
    ensures r.Ok? ==> r.value <= FilterQuestions(reply.text, asked)
    ensures r.Ok? ==> |r.value| == Min(BatchSize, |FilterQuestions(reply.text, asked)|)
  {
    match reply
    case GenerationError => Err(ServiceFailure)
    case Generated(text) => Ok(FirstBatch(FilterQuestions(text, asked)))
  }

  /** `.slice(0, 5)`. */
  function FirstBatch(xs: seq<string>): (r: seq<string>)
    ensures r <= xs && |r| == Min(BatchSize, |xs|)
  {
    if |xs| <= BatchSize then xs else xs[..BatchSize]
  }

  /** `generateBasicQuestions(askedQuestions)`. */
  function BasicQuestions(reply: GenReply, asked: seq<string>): (r: Result<seq<string>, QuestionError>)
    ensures r.Ok? <==> reply.Generated?
    ensures r.Ok? ==> |r.value| <= BatchSize && r.value <= FilterQuestions(reply.text, asked)
  {
    Batch(reply, asked)
  }

  /** `generateInitialTechnicalQuestions(skills, branch, askedQuestions)`:
      the topic lookup runs before the generation call, and fails for
      branches named after inherited object properties. The skills are an
      array of strings here, so reading them cannot fail; they only shape
      the prompt, which is not modelled. */
  function TechnicalQuestions(branch: string, reply: GenReply, asked: seq<string>): (r: Result<seq<string>, QuestionError>)
    ensures r.Ok? <==> CoreTopics(branch).Some? && reply.Generated?
    ensures CoreTopics(branch).None? ==> r == Err(TopicLookupFailure)
    ensures r.Ok? ==> |r.value| <= BatchSize && r.value <= FilterQuestions(reply.text, asked)
  {
    if CoreTopics(branch).None? then Err(TopicLookupFailure) else Batch(reply, asked)
  }

  // ---------------------------------------------------------------------
  // Follow-up questions

  /** Outcome of the retry loop, with the number of generation calls made. */
  datatype Attempts = Attempts(result: Result<string, QuestionError>, calls: nat)

  /** One reply's text as the loop judges it: the trimmed text when it is
      accepted, nothing otherwise. */
  function Screen(text: string, asked: seq<string>): (r: Option<string>)
    ensures r.None? <==> !Accepted(Trim(text), asked)
    ensures r.Some? ==> r.value == Trim(text) && IsTrimmed(r.value)
  {
    var q := Trim(text);
    TrimSpec(text);
    if Accepted(q, asked) then Some(q) else None
  }

  /** `Screen` with the asked questions fixed. */
  function ScreenAgainst(asked: seq<string>): string -> Option<string> {
    t => Screen(t, asked)
  }

  /** A call whose reply arrived but was screened out. */
  predicate Rejected(reply: GenReply, screen: string -> Option<string>) {
    reply.Generated? && screen(reply.text).None?
  }

  /** The `while (attempts < maxAttempts)` loop from attempt `k` on, where
      `gen(j)` is the reply to the `j`-th call and `screen` is
      `ScreenAgainst(asked)`. The loop stops at the first failed call or
      accepted question; its other properties are the lemmas that follow. */
  function AttemptFrom(gen: nat -> GenReply, screen: string -> Option<string>, k: nat): (r: Attempts)
    requires k <= MaxAttempts
    ensures k <= r.calls <= MaxAttempts
    ensures r.result.Err? ==> r.result.error == ServiceFailure || r.result.error == NoUniqueQuestion
    decreases MaxAttempts - k
  {
    if k == MaxAttempts then Attempts(Err(NoUniqueQuestion), k)
    else
      match gen(k)
      case GenerationError => Attempts(Err(ServiceFailure), k + 1)
      case Generated(text) =>
        match screen(text)
        case Some(q) => Attempts(Ok(q), k + 1)
        case None => AttemptFrom(gen, screen, k + 1)
  }

  /** Every call before the last one the loop made was rejected. */
  lemma {:induction false} AttemptFromSkipsRejected(gen: nat -> GenReply, screen: string -> Option<string>, k: nat)
    requires k <= MaxAttempts
    ensures forall j :: k <= j < AttemptFrom(gen, screen, k).calls - 1 ==> Rejected(gen(j), screen)
    decreases MaxAttempts - k
  {
    if k < MaxAttempts && Rejected(gen(k), screen) {
      AttemptFromSkipsRejected(gen, screen, k + 1);
    }
  }

  /** A question comes back only from an accepted reply, and it is the
      screened text of the last call made. */
  lemma {:induction false} AttemptFromFound(gen: nat -> GenReply, screen: string -> Option<string>, k: nat)
    requires k <= MaxAttempts
    ensures var r := AttemptFrom(gen, screen, k);
      r.result.Ok? ==>
        r.calls > k && gen(r.calls - 1).Generated? && screen(gen(r.calls - 1).text) == Some(r.result.value)
    decreases MaxAttempts - k
  {
    if k < MaxAttempts && Rejected(gen(k), screen) {
      AttemptFromFound(gen, screen, k + 1);
    }
  }

  /** A failed call ends the loop with a service failure. */
  lemma {:induction false} AttemptFromFailure(gen: nat -> GenReply, screen: string -> Option<string>, k: nat)
    requires k <= MaxAttempts
    ensures var r := AttemptFrom(gen, screen, k);
      r.result == Err(ServiceFailure) ==> r.calls > k && gen(r.calls - 1).GenerationError?
    decreases MaxAttempts - k
  {
    if k < MaxAttempts && Rejected(gen(k), screen) {
      AttemptFromFailure(gen, screen, k + 1);
    }
  }

  /** The loop gives up exactly when every remaining call is rejected, and
      then it has made all five calls. */
  lemma {:induction false} AttemptFromExhausted(gen: nat -> GenReply, screen: string -> Option<string>, k: nat)
    requires k <= MaxAttempts
    ensures var r := AttemptFrom(gen, screen, k);
      r.result == Err(NoUniqueQuestion) <==> forall j :: k <= j < MaxAttempts ==> Rejected(gen(j), screen)
    ensures var r := AttemptFrom(gen, screen, k);
      r.result == Err(NoUniqueQuestion) ==> r.calls == MaxAttempts
    decreases MaxAttempts - k
  {
    if k < MaxAttempts && Rejected(gen(k), screen) {
      AttemptFromExhausted(gen, screen, k + 1);
    }
  }

  /** `generateDynamicQuestion(responses, skills, branch, askedQuestions)`:
      the topic lookup, then at most five generation calls. */
  function DynamicQuestion(branch: string, gen: nat -> GenReply, asked: seq<string>): (r: Attempts)
    ensures r.calls <= MaxAttempts
    ensures CoreTopics(branch).None? ==> r == Attempts(Err(TopicLookupFailure), 0)
    ensures r.result.Ok? ==> Accepted(r.result.value, asked) && IsTrimmed(r.result.value)
  {
    if CoreTopics(branch).None? then Attempts(Err(TopicLookupFailure), 0)
    else
      AttemptFromFound(gen, ScreenAgainst(asked), 0);
      AttemptFrom(gen, ScreenAgainst(asked), 0)
  }

  /** At the live call site nothing is passed as asked, so a follow-up
      question fails as a duplicate only when all five replies are blank. */
  lemma DynamicWithNothingAsked(branch: string, gen: nat -> GenReply)
    requires CoreTopics(branch).Some?
    ensures DynamicQuestion(branch, gen, []).result == Err(NoUniqueQuestion)
      <==> forall j :: 0 <= j < MaxAttempts ==> gen(j).Generated? && Trim(gen(j).text) == ""
  {
    AttemptFromExhausted(gen, ScreenAgainst([]), 0);
  }

  /** A generator that keeps repeating an asked question exhausts all five
      attempts. */
  lemma RepeatsExhaustAttempts(branch: string, gen: nat -> GenReply, asked: seq<string>, q: string)
    requires CoreTopics(branch).Some?
    requires q in asked && IsTrimmed(q)
    requires forall j :: 0 <= j < MaxAttempts ==> gen(j) == Generated(q)
    ensures DynamicQuestion(branch, gen, asked) == Attempts(Err(NoUniqueQuestion), MaxAttempts)
  {
    AskedIsScreenedOut(q, asked);
    AllRejected(gen, ScreenAgainst(asked), Generated(q));
  }

  /** Five rejected replies in a row exhaust the loop. */
  lemma AllRejected(gen: nat -> GenReply, screen: string -> Option<string>, reply: GenReply)
    requires Rejected(reply, screen)
    requires forall j :: 0 <= j < MaxAttempts ==> gen(j) == reply
    ensures AttemptFrom(gen, screen, 0) == Attempts(Err(NoUniqueQuestion), MaxAttempts)
  {
    AttemptFromExhausted(gen, screen, 0);
  }

  /** An asked question, already trimmed, never passes the screen again. */
  lemma AskedIsScreenedOut(q: string, asked: seq<string>)
    requires q in asked && IsTrimmed(q)
    ensures Screen(q, asked).None?
  {
    TrimOfTrimmed(q);
    SelfSimilarity(q);
  }

  // ---------------------------------------------------------------------
  // Core topics

  const CoreMap: map<string, seq<string>> := map[
    "Computer Science" := ["Data Structures", "Algorithms", "Operating Systems", "DBMS", "Computer Networks", "OOP"],
    "Electrical" := ["Circuits", "Control Systems", "Signal Processing", "Power Systems", "Electromagnetics"],
    "Mechanical" := ["Thermodynamics", "Fluid Mechanics", "Heat Transfer", "Strength of Materials", "Machine Design"],
    "Civil" := ["Structural Analysis", "Concrete Technology", "Geotechnical Engineering", "Transportation Engineering"],
    "Electronics" := ["Analog Circuits", "Digital Logic", "Microprocessors", "Embedded Systems", "VLSI"]
  ]

  const FallbackTopics: seq<string> := ["basic engineering topics"]

  /** `getCoreTopics(branch)`: `coreMap[branch] || ['basic engineering topics']`.
      For a branch named after an inherited object property the lookup
      yields a non-array, whose later `.join` throws: `None`. */
  function CoreTopics(branch: string): (r: Option<seq<string>>)
    ensures r.None? <==> branch in ObjectPrototypeNames
    ensures r.Some? ==> |r.value| > 0
    ensures branch in CoreMap ==> r == Some(CoreMap[branch])
    ensures branch !in CoreMap && branch !in ObjectPrototypeNames ==> r == Some(FallbackTopics)
  {
    if branch in CoreMap then Some(CoreMap[branch])
    else if branch in ObjectPrototypeNames then None
    else Some(FallbackTopics)
  }

  /** The table has exactly five keys, and the lookup is case-sensitive. */
  lemma CoreTopicsKeys()
    ensures CoreMap.Keys == {"Computer Science", "Electrical", "Mechanical", "Civil", "Electronics"}
    ensures CoreTopics("civil") == Some(FallbackTopics)
    ensures CoreTopics("Civil") != Some(FallbackTopics)
  {
  }
}

=== FILE: resume_processor.dfy ===
/** Resume processing: the file-extension gate, the fallbacks that force
    the extracted skills and projects to be arrays, and the keyword
    classifier that infers an engineering branch from the skills. */
module ResumeProcessor {
  import opened Wrappers
  import opened Seqs
  import opened JsText
  import opened QuestionGenerator

  // ---------------------------------------------------------------------
  // Branch inference

  const CseKeywords: set<string> := {"python", "java", "c++", "javascript", "sql", "machine learning", "aws"}
  const EceKeywords: set<string> := {"matlab", "vlsi"}
  const EeeKeywords: set<string> := {"plc", "scada"}
  const CivilKeywords: set<string> := {"autocad", "staad"}

  /** Every label the classifier can return. */
  const BranchLabels: set<string> := {"CSE", "ECE", "EEE", "Civil", "Unknown"}

  /** `new Set(skills.map(s => s.toLowerCase()))`. */
  function SkillSet(skills: seq<string>): set<string> {
    set i | 0 <= i < |skills| :: Lower(skills[i])
  }

  /** Some lower-cased skill is, as a whole, one of the keywords. */
  predicate Mentions(skills: seq<string>, keywords: set<string>) {
    exists k :: k in keywords && k in SkillSet(skills)
  }

  /** `inferBranch(skills)`: the first keyword group, in the order CSE, ECE,
      EEE, Civil, that one of the lower-cased skills belongs to. */
  function InferBranch(skills: seq<string>): (r: string)
    ensures r in BranchLabels
    ensures |skills| == 0 ==> r == "Unknown"
    ensures r == "CSE" <==> Mentions(skills, CseKeywords)
    ensures r == "ECE" <==> !Mentions(skills, CseKeywords) && Mentions(skills, EceKeywords)
    ensures r == "EEE" <==> !Mentions(skills, CseKeywords) && !Mentions(skills, EceKeywords)
                            && Mentions(skills, EeeKeywords)
    ensures r == "Civil" <==> !Mentions(skills, CseKeywords) && !Mentions(skills, EceKeywords)
                              && !Mentions(skills, EeeKeywords) && Mentions(skills, CivilKeywords)
  {
    if |skills| == 0 then "Unknown"
    else if Mentions(skills, CseKeywords) then "CSE"
    else if Mentions(skills, EceKeywords) then "ECE"
    else if Mentions(skills, EeeKeywords) then "EEE"
    else if Mentions(skills, CivilKeywords) then "Civil"
    else "Unknown"
  }

  /** The classifier as a search through a priority list: the label of the
      first group some element of the skill set belongs to. */
  function FirstGroup(groups: seq<(string, set<string>)>, skillSet: set<string>): string {
    if |groups| == 0 then "Unknown"
    else if exists k :: k in groups[0].1 && k in skillSet then groups[0].0
    else FirstGroup(groups[1..], skillSet)
  }

  /** The keyword groups in the order they are tried. */
  const Groups: seq<(string, set<string>)> :=
    [("CSE", CseKeywords), ("ECE", EceKeywords), ("EEE", EeeKeywords), ("Civil", CivilKeywords)]

  /** The classifier agrees with the priority-list search over its skill
      set. */
  lemma InferBranchIsFirstGroup(skills: seq<string>)
    ensures InferBranch(skills) == FirstGroup(Groups, SkillSet(skills))
  {
    var s := SkillSet(skills);
    var g1 := Groups[1..];
    var g2 := g1[1..];
    var g3 := g2[1..];
    assert g3 == [("Civil", CivilKeywords)] && g3[1..] == [];
    assert FirstGroup(g3, s) == if Mentions(skills, CivilKeywords) then "Civil" else "Unknown";
    assert g2[0] == ("EEE", EeeKeywords);
    assert FirstGroup(g2, s) == if Mentions(skills, EeeKeywords) then "EEE" else FirstGroup(g3, s);
    assert g1[0] == ("ECE", EceKeywords);
    assert FirstGroup(g1, s) == if Mentions(skills, EceKeywords) then "ECE" else FirstGroup(g2, s);
    assert FirstGroup(Groups, s) == if Mentions(skills, CseKeywords) then "CSE" else FirstGroup(g1, s);
    if |skills| == 0 {
      assert s == {};
    }
  }

  /** One skill gives one lower-cased element. */
  lemma SkillSetSingle(skill: string)
    ensures SkillSet([skill]) == {Lower(skill)}
  {
    assert Lower([skill][0]) in SkillSet([skill]);
  }

  /** The result depends only on the set of lower-cased skills. */
  lemma InferBranchDependsOnSkillSet(a: seq<string>, b: seq<string>)
    requires SkillSet(a) == SkillSet(b)
    ensures InferBranch(a) == InferBranch(b)
  {
    if |a| > 0 {
      assert Lower(a[0]) in SkillSet(b);
    }
    if |b| > 0 {
      assert Lower(b[0]) in SkillSet(a);
    }
  }

  /** Reordering or repeating skills does not change the branch. */
  lemma InferBranchIgnoresOrderAndRepeats(a: seq<string>, b: seq<string>)
    requires forall s :: s in a <==> s in b
    ensures InferBranch(a) == InferBranch(b)
  {
    forall x | x in SkillSet(a)
      ensures x in SkillSet(b)
    {
      var i :| 0 <= i < |a| && Lower(a[i]) == x;
      assert a[i] in b;
      var j :| 0 <= j < |b| && b[j] == a[i];
    }
    forall x | x in SkillSet(b)
      ensures x in SkillSet(a)
    {
      var j :| 0 <= j < |b| && Lower(b[j]) == x;
      assert b[j] in a;
      var i :| 0 <= i < |a| && a[i] == b[j];
    }
    InferBranchDependsOnSkillSet(a, b);
  }

  /** Changing the case of skills does not change the branch. */
  lemma InferBranchIgnoresCase(a: seq<string>, b: seq<string>)
    requires |a| == |b|
    requires forall i :: 0 <= i < |a| ==> Lower(a[i]) == Lower(b[i])
    ensures InferBranch(a) == InferBranch(b)
  {
    InferBranchDependsOnSkillSet(a, b);
  }

  /** Matching is on whole skills: a skill that merely contains a keyword
      does not count. */
  lemma WholeSkillMatching()
    ensures InferBranch(["python 3"]) == "Unknown"
  {
    SkillSetSingle("python 3");
    LowerOfLowerCase("python 3");
    NoKeywordOfLengthEight();
  }

  lemma NoKeywordOfLengthEight()
    ensures forall k :: k in CseKeywords + EceKeywords + EeeKeywords + CivilKeywords ==> |k| != 8
  {
  }

  /** Case does not matter: `Python` is a CSE skill. */
  lemma CapitalisedSkillMatches()
    ensures InferBranch(["Python"]) == "CSE"
  {
    SkillSetSingle("Python");
    assert Lower("Python") == "python";
  }

  /** Inferred labels and core-topic keys share only `Civil`: every other
      inferred branch gets the fallback topics. */
  lemma InferredBranchTopics(skills: seq<string>)
    ensures InferBranch(skills) == "Civil" ==> CoreTopics(InferBranch(skills)) == Some(CoreMap["Civil"])
    ensures InferBranch(skills) != "Civil" ==> CoreTopics(InferBranch(skills)) == Some(FallbackTopics)
  {
    CoreTopicsKeys();
  }

  // ---------------------------------------------------------------------
  // Extension gate

  /** The path without its trailing slashes. */
  function StripTrailingSlashes(p: string): (r: string)
    ensures r <= p
    ensures |r| == 0 || r[|r| - 1] != '/'
    ensures forall i :: |r| <= i < |p| ==> p[i] == '/'
  {
    if |p| > 0 && p[|p| - 1] == '/' then StripTrailingSlashes(p[..|p| - 1]) else p
  }

  /** The last path component. */
  function Basename(p: string): (r: string)
    ensures '/' !in r
  {
    var q := StripTrailingSlashes(p);
    q[LastIndexOf(q, '/') + 1..]
  }

  /** `path.extname(p)` (POSIX): from the last dot of the last component
      to its end, or empty when that component has no dot, starts with its
      only dot, or is `..`. */
  function Extname(p: string): (r: string)
    ensures r == "" || (r[0] == '.' && '.' !in r[1..] && '/' !in r)
    ensures r != "" ==> |r| < |Basename(p)| && r == Basename(p)[|Basename(p)| - |r|..]
  {
    var b := Basename(p);
    var d := LastIndexOf(b, '.');
    if d < 1 || b == ".." then "" else b[d..]
  }

  /** The last component of `dir/name` is `name`. */
  lemma BasenameOfChild(dir: string, name: string)
    requires |name| > 0 && '/' !in name
    ensures Basename(dir + "/" + name) == name
  {
    var p := dir + "/" + name;
    assert p[|p| - 1] == name[|name| - 1];
    LastIndexOfSplit(dir, '/', name);
    assert p[|dir| + 1..] == name;
  }

  /** A file named `stem` followed by an extension `ext` (a dot and at
      least one more character, no further dot) has extension `ext`. */
  lemma ExtnameOfFile(dir: string, stem: string, ext: string)
    requires |stem| > 0 && '/' !in stem
    requires |ext| >= 2 && ext[0] == '.' && '.' !in ext[1..] && '/' !in ext
    ensures Extname(dir + "/" + stem + ext) == ext
  {
    var p := dir + "/" + stem + ext;
    assert p == dir + "/" + (stem + ext);
    BasenameOfChild(dir, stem + ext);
    ExtnameOfName(p, stem, ext);
  }

  /** The extension read off a last component `stem` + `ext`. */
  lemma ExtnameOfName(p: string, stem: string, ext: string)
    requires |stem| > 0
    requires |ext| >= 2 && ext[0] == '.' && '.' !in ext[1..]
    requires Basename(p) == stem + ext
    ensures Extname(p) == ext
  {
    var name := stem + ext;
    assert name == stem + ['.'] + ext[1..];
    LastIndexOfSplit(stem, '.', ext[1..]);
    assert name[|stem|..] == ext;
  }

  /** A last component without a dot, or whose only dot comes first, has no
      extension. */
  lemma NoExtname(dir: string, name: string)
    requires |name| > 0 && '/' !in name
    requires '.' !in name || (name[0] == '.' && '.' !in name[1..])
    ensures Extname(dir + "/" + name) == ""
  {
    BasenameOfChild(dir, name);
    if '.' in name {
      LastIndexOfSplit([], '.', name[1..]);
      assert name == [] + ['.'] + name[1..];
    }
  }

  /** Why a resume was refused. */
  datatype ResumeError =
    | NotAccessible
    | NoExtension
    | UnsupportedFormat(ext: string)
    | PdfUnreadable

  /** The check on `path.extname(filePath).toLowerCase()`. */
  function CheckExtension(p: string): (r: Result<(), ResumeError>)
    ensures r.Ok? <==> Lower(Extname(p)) == ".pdf"
    ensures r == Err(NoExtension) <==> Extname(p) == ""
    ensures r.Err? && Extname(p) != "" ==> r == Err(UnsupportedFormat(Lower(Extname(p))))
  {
    var ext := Lower(Extname(p));
    if ext == "" then Err(NoExtension)
    else if ext == ".pdf" then Ok(())
    else Err(UnsupportedFormat(ext))
  }

  /** The gate on a file `stem` + `ext`: accepted exactly when the
      extension lower-cases to `.pdf`, refused with the lower-cased
      extension otherwise. */
  lemma CheckExtensionOfFile(dir: string, stem: string, ext: string)
    requires |stem| > 0 && '/' !in stem
    requires |ext| >= 2 && ext[0] == '.' && '.' !in ext[1..] && '/' !in ext
    ensures CheckExtension(dir + "/" + stem + ext)
      == if Lower(ext) == ".pdf" then Ok(()) else Err(UnsupportedFormat(Lower(ext)))
  {
    ExtnameOfFile(dir, stem, ext);
  }

  /** `.pdf` is accepted in any case. */
  lemma PdfInAnyCase(dir: string, stem: string)
    requires |stem| > 0 && '/' !in stem
    ensures CheckExtension(dir + "/" + stem + ".pdf").Ok?
    ensures CheckExtension(dir + "/" + stem + ".PDF").Ok?
  {
    assert Lower(".pdf") == ".pdf";
    CheckExtensionOfFile(dir, stem, ".pdf");
    assert Lower(".PDF") == ".pdf";
    CheckExtensionOfFile(dir, stem, ".PDF");
  }

  /** A hidden file named `.pdf` has no extension at all. */
  lemma DotFileHasNoExtension(dir: string)
    ensures CheckExtension(dir + "/.pdf") == Err(NoExtension)
  {
    NoExtname(dir, ".pdf");
    assert dir + "/" + ".pdf" == dir + "/.pdf";
  }

  // ---------------------------------------------------------------------
  // Extraction and the whole pipeline

  /** One field of the parsed extraction reply: an array of strings, or
      anything else (missing, `null`, a string, an object). */
  datatype JsonField = Array(items: seq<string>) | NotArray

  /** The extraction model's reply: a failure (a failed call, text that is
      not JSON, or JSON that cannot be destructured), or the parsed object's
      two fields. */
  datatype ExtractionReply = ExtractionFailed | ExtractionParsed(skills: JsonField, projects: JsonField)

  /** What `extractSkillsAndProjectsWithGemini` returns. */
  datatype Extracted = Extracted(skills: seq<string>, projects: seq<string>)

  /** `Array.isArray(x) ? x : []`. */
  function ArrayOrEmpty(f: JsonField): seq<string> {
    if f.Array? then f.items else []
  }

  /** `extractSkillsAndProjectsWithGemini(text)`: both fields forced to be
      arrays; any failure gives two empty arrays. It never throws. */
  function ExtractSkillsAndProjects(reply: ExtractionReply): (r: Extracted)
    ensures reply.ExtractionFailed? ==> r == Extracted([], [])
    ensures reply.ExtractionParsed? ==>
      && (reply.skills.Array? ==> r.skills == reply.skills.items)
      && (reply.skills.NotArray? ==> r.skills == [])
      && (reply.projects.Array? ==> r.projects == reply.projects.items)
      && (reply.projects.NotArray? ==> r.projects == [])
  {
    match reply
    case ExtractionFailed => Extracted([], [])
    case ExtractionParsed(s, p) => Extracted(ArrayOrEmpty(s), ArrayOrEmpty(p))
  }

  /** A failed extraction leaves the branch unknown. */
  lemma FailedExtractionIsUnknown()
    ensures InferBranch(ExtractSkillsAndProjects(ExtractionFailed).skills) == "Unknown"
  {
  }

  /** What `processResume` returns. */
  datatype Resume = Resume(skills: seq<string>, projects: seq<string>, branch: string)

  /** `processResume(filePath)`: the file must be accessible, have an
      extension, and that extension must be `.pdf`; a PDF that cannot be
      read fails. The extracted skills then decide the branch. Deleting the
      file afterwards cannot fail the call. */
  function ProcessResume(p: string, accessible: bool, pdfReadable: bool, extraction: ExtractionReply): (r: Result<Resume, ResumeError>)
    ensures !accessible ==> r == Err(NotAccessible)
    ensures accessible ==> (r == Err(NoExtension) <==> Extname(p) == "")
    ensures accessible && Extname(p) != "" && Lower(Extname(p)) != ".pdf" ==>
      r == Err(UnsupportedFormat(Lower(Extname(p))))
    ensures r.Ok? <==> accessible && Lower(Extname(p)) == ".pdf" && pdfReadable
    ensures r.Ok? ==>
      var e := ExtractSkillsAndProjects(extraction);
      r.value == Resume(e.skills, e.projects, InferBranch(e.skills))
  {
    if !accessible then Err(NotAccessible)
    else
      match CheckExtension(p)
      case Err(e) => Err(e)
      case Ok(_) =>
        if !pdfReadable then Err(PdfUnreadable)
        else
          var e := ExtractSkillsAndProjects(extraction);
          Ok(Resume(e.skills, e.projects, InferBranch(e.skills)))
  }
}

=== FILE: seqs.dfy ===
/** Sequence helpers shared by the model: the `Array.prototype.filter`,
    `indexOf`, `reduce` and `[...new Set(xs)]` idioms the source uses. */
module Seqs {

  /** `sub` can be obtained from `xs` by deleting elements: order is kept. */
  ghost predicate IsSubsequence<T>(sub: seq<T>, xs: seq<T>)
    decreases |xs|
  {
    if |sub| == 0 then true
    else if |xs| == 0 then false
    else if sub[0] == xs[0] then IsSubsequence(sub[1..], xs[1..])
    else IsSubsequence(sub, xs[1..])
  }

  /** No element occurs twice. */
  predicate NoDup<T(==)>(xs: seq<T>) {
    forall i, j :: 0 <= i < j < |xs| ==> xs[i] != xs[j]
  }

  /** `xs.filter(p)`. */
  function Filter<T(!new)>(xs: seq<T>, p: T -> bool): (r: seq<T>)
    ensures |r| <= |xs|
    ensures forall x :: x in r <==> x in xs && p(x)
    ensures IsSubsequence(r, xs)
    ensures (forall i :: 0 <= i < |xs| ==> p(xs[i])) ==> r == xs
  {
    if |xs| == 0 then []
    else if p(xs[0]) then [xs[0]] + Filter(xs[1..], p)
    else Filter(xs[1..], p)
  }

  /** Two filters whose predicates agree on the elements give the same result. */
  lemma {:induction false} FilterCongruent<T(!new)>(xs: seq<T>, p: T -> bool, q: T -> bool)
    requires forall i :: 0 <= i < |xs| ==> p(xs[i]) == q(xs[i])
    ensures Filter(xs, p) == Filter(xs, q)
  {
    if |xs| > 0 {
      FilterCongruent(xs[1..], p, q);
    }
  }

  /** Filtering a duplicate-free sequence keeps it duplicate-free. */
  lemma {:induction false} FilterNoDup<T(!new)>(xs: seq<T>, p: T -> bool)
    requires NoDup(xs)
    ensures NoDup(Filter(xs, p))
  {
    if |xs| > 0 {
      FilterNoDup(xs[1..], p);
      var rest := Filter(xs[1..], p);
      assert xs[0] !in xs[1..];
      assert xs[0] !in rest;
    }
  }

  /** Filters with complementary predicates split a sequence in two. */
  lemma {:induction false} FilterComplementCount<T(!new)>(xs: seq<T>, p: T -> bool, q: T -> bool)
    requires forall i :: 0 <= i < |xs| ==> q(xs[i]) == !p(xs[i])
    ensures |Filter(xs, p)| + |Filter(xs, q)| == |xs|
  {
    if |xs| > 0 {
      FilterComplementCount(xs[1..], p, q);
    }
  }

  /** The set of elements of a sequence. */
  function Elements<T>(xs: seq<T>): set<T> {
    set x | x in xs
  }

  /** A duplicate-free sequence has as many elements as its set. */
  lemma {:induction false} NoDupCard<T>(xs: seq<T>)
    requires NoDup(xs)
    ensures |Elements(xs)| == |xs|
  {
    if |xs| > 0 {
      var init := xs[..|xs| - 1];
      var last := xs[|xs| - 1];
      NoDupCard(init);
      assert xs == init + [last];
      assert Elements(xs) == Elements(init) + {last};
      assert last !in Elements(init);
    }
  }

  /** Two duplicate-free sequences with the same elements have the same
      length. */
  lemma SameElementsSameLength<T>(a: seq<T>, b: seq<T>)
    requires NoDup(a) && NoDup(b)
    requires forall x :: x in a <==> x in b
    ensures |a| == |b|
  {
    NoDupCard(a);
    NoDupCard(b);
    assert Elements(a) == Elements(b);
  }

  /** `xs.indexOf(x)`: the position of the first occurrence, or -1. */
  function IndexOf<T(==)>(xs: seq<T>, x: T): (r: int)
    ensures -1 <= r < |xs|
    ensures r == -1 <==> x !in xs
    ensures r >= 0 ==> xs[r] == x && x !in xs[..r]
  {
    if |xs| == 0 then -1
    else if xs[0] == x then 0
    else
      var k := IndexOf(xs[1..], x);
      assert xs[1..][..if k < 0 then 0 else k] == xs[1..1 + if k < 0 then 0 else k];
      if k < 0 then -1 else k + 1
  }

  /** `xs.lastIndexOf(x)`: the position of the last occurrence, or -1. */
  function LastIndexOf<T(==)>(xs: seq<T>, x: T): (r: int)
    ensures -1 <= r < |xs|
    ensures r == -1 <==> x !in xs
    ensures r >= 0 ==> xs[r] == x && forall j :: r < j < |xs| ==> xs[j] != x
  {
    if |xs| == 0 then -1
    else if xs[|xs| - 1] == x then |xs| - 1
    else
      var k := LastIndexOf(xs[..|xs| - 1], x);
      assert x in xs ==> x in xs[..|xs| - 1] by {
        if x in xs {
          var i :| 0 <= i < |xs| && xs[i] == x;
          assert xs[..|xs| - 1][i] == x;
        }
      }
      k
  }

  /** Filtering keeps the relative order of first occurrences. */
  lemma {:induction false} FilterKeepsOrder<T(!new)>(xs: seq<T>, p: T -> bool, a: T, b: T)
    requires a in Filter(xs, p) && b in Filter(xs, p)
    requires IndexOf(Filter(xs, p), a) < IndexOf(Filter(xs, p), b)
    ensures IndexOf(xs, a) < IndexOf(xs, b)
  {
    var f := Filter(xs, p);
    var rest := Filter(xs[1..], p);
    if p(xs[0]) {
      assert f == [xs[0]] + rest;
      if a != xs[0] && b != xs[0] {
        assert a in rest && b in rest;
        assert IndexOf(f, a) == IndexOf(rest, a) + 1;
        assert IndexOf(f, b) == IndexOf(rest, b) + 1;
        FilterKeepsOrder(xs[1..], p, a, b);
      }
    } else {
      assert f == rest;
      FilterKeepsOrder(xs[1..], p, a, b);
    }
  }

  /** The last `x` of `a + [x] + b` is the separator itself when `b` holds
      no `x`. */
  lemma {:induction false} LastIndexOfSplit<T>(a: seq<T>, x: T, b: seq<T>)
    requires x !in b
    ensures LastIndexOf(a + [x] + b, x) == |a|
    decreases |b|
  {
    if |b| > 0 {
      var xs := a + [x] + b;
      assert xs[..|xs| - 1] == a + [x] + b[..|b| - 1];
      assert xs[|xs| - 1] == b[|b| - 1];
      LastIndexOfSplit(a, x, b[..|b| - 1]);
    }
  }

  /** `[...new Set(xs)]`: each element once, at the place where a `Set`
      built by inserting `xs` from left to right first received it. */
  function Dedup<T(==,!new)>(xs: seq<T>): (r: seq<T>)
    ensures NoDup(r)
    ensures forall x :: x in r <==> x in xs
    ensures |r| <= |xs|
  {
    if |xs| == 0 then []
    else
      var d := Dedup(xs[..|xs| - 1]);
      var last := xs[|xs| - 1];
      assert forall x :: x in xs <==> x in xs[..|xs| - 1] || x == last;
      if last in d then d else d + [last]
  }

  /** The elements of `ys` are ordered by their first occurrence in `xs`. */
  ghost predicate OrderedByFirstOccurrence<T>(ys: seq<T>, xs: seq<T>) {
    forall i, j :: 0 <= i < j < |ys| ==> IndexOf(xs, ys[i]) < IndexOf(xs, ys[j])
  }

  /** The elements of `Dedup(xs)` are ordered by their first occurrence in `xs`. */
  lemma {:induction false} DedupFirstOccurrenceOrder<T(!new)>(xs: seq<T>)
    ensures OrderedByFirstOccurrence(Dedup(xs), xs)
  {
    if |xs| > 0 {
      var init := xs[..|xs| - 1];
      var last := xs[|xs| - 1];
      DedupFirstOccurrenceOrder(init);
      assert xs == init + [last];
      forall y | y in init
        ensures IndexOf(xs, y) == IndexOf(init, y)
      {
        IndexOfAppend(init, [last], y);
      }
      if last !in Dedup(init) {
        IndexOfAppend(init, [last], last);
        OrderExtends(Dedup(init), init, xs, last);
      } else {
        OrderCarries(Dedup(init), init, xs);
      }
    }
  }

  /** An order by first occurrence in `init` carries over to `xs` when `xs`
      places every element of `init` where `init` does. */
  lemma OrderCarries<T>(d: seq<T>, init: seq<T>, xs: seq<T>)
    requires OrderedByFirstOccurrence(d, init)
    requires forall y :: y in d ==> y in init
    requires forall y :: y in init ==> IndexOf(xs, y) == IndexOf(init, y)
    ensures OrderedByFirstOccurrence(d, xs)
  {
    forall i, j | 0 <= i < j < |d|
      ensures IndexOf(xs, d[i]) < IndexOf(xs, d[j])
    {
      assert d[i] in init && d[j] in init;
    }
  }

  /** Appending an element that first occurs after all of `init` keeps the
      order. */
  lemma OrderExtends<T>(d: seq<T>, init: seq<T>, xs: seq<T>, last: T)
    requires OrderedByFirstOccurrence(d, init)
    requires forall y :: y in d ==> y in init
    requires forall y :: y in init ==> IndexOf(xs, y) == IndexOf(init, y)
    requires last !in init && IndexOf(xs, last) == |init|
    ensures OrderedByFirstOccurrence(d + [last], xs)
  {
    var r := d + [last];
    forall i, j | 0 <= i < j < |r|
      ensures IndexOf(xs, r[i]) < IndexOf(xs, r[j])
    {
      assert r[i] in d && r[i] in init;
      if j < |d| {
        assert r[j] in d;
      }
    }
  }

  /** Looking an element up in a concatenation finds it in the first part when it is there. */
  lemma {:induction false} IndexOfAppend<T>(a: seq<T>, b: seq<T>, x: T)
    ensures x in a ==> IndexOf(a + b, x) == IndexOf(a, x)
    ensures x !in a && x in b ==> IndexOf(a + b, x) == |a| + IndexOf(b, x)
  {
    if |a| > 0 {
      assert (a + b)[1..] == a[1..] + b;
      IndexOfAppend(a[1..], b, x);
    } else {
      assert a + b == b;
    }
  }

  /** `xs.reduce((a, b) => a + b, 0)`. */
  function Sum(xs: seq<int>): int {
    if |xs| == 0 then 0 else Sum(xs[..|xs| - 1]) + xs[|xs| - 1]
  }

  /** A sum of values in `[lo, hi]` lies between `lo` and `hi` times the count. */
  lemma {:induction false} SumBounds(xs: seq<int>, lo: int, hi: int)
    requires forall i :: 0 <= i < |xs| ==> lo <= xs[i] <= hi
    ensures lo * |xs| <= Sum(xs) <= hi * |xs|
  {
    if |xs| > 0 {
      var n := |xs| - 1;
      SumBounds(xs[..n], lo, hi);
      assert lo * |xs| == lo * n + lo;
      assert hi * |xs| == hi * n + hi;
    }
  }
}

=== FILE: wrappers.dfy ===
/** Option and Result: JavaScript's `undefined`/`null` and thrown errors,
    made explicit. */
module Wrappers {

  datatype Option<+T> = None | Some(value: T)

  datatype Result<+T, +E> = Ok(value: T) | Err(error: E)
}
